=== FILE: README.md ===
# HomeChat core, modelled in Dafny

HomeChat is a small home chat server. People join under a name over a WebSocket. They post
in shared rooms, send direct messages, create private rooms, delete their own rooms and
messages, and reorder their room list. A browser client keeps a per-conversation message
cache and unread counters. This project models the logic of that system and proves
properties of it:

- the message store of `db.js`, including the newline-delimited log file;
- the room directory, connection registry, frame dispatcher, recipient fan-out, the prompt
  built for the assistant and the uptime split of `server.js`;
- the message cache, drag-and-drop reordering and people list of `public/app.js`.

Every handler is a pure function from the server state and one decoded frame to a new
state and a list of outbound frames (`Server.Step`, `Server.OnClose`). Node runs one handler
to completion before the next starts, so one frame is one atomic step. The clock and the
random id generator are passed in as parameters (`Server.Env`). JSON encoding of records is
an `encode`/`parse` pair of parameters, related by a round-trip requirement
(`LogFile.RoundTrips`).

Modules, in dependency order:

- `Wrappers`, `Seqs`, `Text`, `Sorting`: JavaScript array and string built-ins.
- `MessageStore`, `LogFile`: `db.js`.
- `Slug`, `RoomDirectory`, `Registry`, `Fanout`, `Server`, `ClaudePrompt`, `Uptime`: `server.js`.
- `ClientCache`, `ClientSidebar`: `public/app.js`.

Where the written design and the code disagree, the model follows the code:

- A room slug can end in a hyphen. The edge hyphens are stripped before the name is cut
  to 32 characters, so a cut can expose a new trailing hyphen (`Slug.TrailingHyphenSurvives`).
- A name holds at most one live connection. `join` rejects a name whose connection set is
  non-empty, so a second device under the same name is refused (`Registry.AtMostOneConnection`).
  This is unlike multi-device presence.
- A connection that joins again under a second name keeps its first registration. `close`
  only removes the connection from the set of the latest name. The first name then stays
  taken for good (`Registry.StaleAfterRejoin`).
- A `reorder_rooms` request is accepted when the two sorted name lists are equal. That is
  equality of multisets, so a list may repeat a name only as often as the visible rooms do.

## Model

| member | source | states |
|---|---|---|
| MessageStore.SaveMessage | db.js:21-25 | the record is appended after every earlier one; it keeps its own non-empty id, or receives the fresh id when it has none; no other field changes |
| MessageStore.FindMatch | db.js:33 | the result is -1 exactly when no record has this id and sender; otherwise it is the first index of such a record |
| MessageStore.DeleteMessage | db.js:32-38 | reports failure exactly when no record matches, and then leaves the log alone; on success the log loses exactly the first matching record, and the rest keeps its order |
| MessageStore.DeleteRemovesOneMatch | db.js:33-35 | a successful deletion removes one record with the requested id and sender, and keeps all other records as a multiset |
| MessageStore.RoomHistory | db.js:40-44 | only records of that room, all from the log; with a positive limit, exactly the newest min(limit, count) of them, in log order, as a suffix of the room's full history |
| MessageStore.DMHistory | db.js:46-54 | only direct messages between the two names, in either direction; with a positive limit, exactly the newest min(limit, count) of them, in log order, as a suffix of the pair's full history |
| MessageStore.Froms | db.js:58-60 | a name appears exactly when it is the non-empty sender of some record |
| MessageStore.KnownUsers | db.js:56-62 | every non-empty sender exactly once, in order of first appearance |
| MessageStore.SaveExtendsRoomHistory | db.js:40-44 | saving extends the full history of the record's own room by exactly that record and leaves every other room's history unchanged |
| MessageStore.SavedRecordIsNewest | db.js:40-44 | with a positive limit, the newest entry of the room's history is the record just saved |
| MessageStore.DMHistorySymmetric | db.js:48-51 | the direct-message history of a pair does not depend on which of the two asks |
| MessageStore.DeletedRecordLeavesHistories | db.js:32-54 | once a record with a unique id is deleted, neither the log nor any room or direct history returns a record with that id |
| LogFile.Lines | db.js:10 | splitting on newlines gives at least one piece, and no piece contains a newline |
| LogFile.LoadLine | db.js:11-17 | one line yields at most one record |
| LogFile.BadLineSkipped | db.js:10-16 | a blank or unparsable line contributes nothing to the loaded log, wherever it sits |
| LogFile.LoadLinesAppend | db.js:11-17 | loading two runs of lines gives the two loaded logs one after the other |
| LogFile.LinesOfJoin | db.js:28 | splitting records joined by newlines gives back the records, when none contains a newline |
| LogFile.LoadEncodes | db.js:28 | parsing the encoding of each record gives back the log |
| LogFile.RewriteThenLoad | db.js:27-30 | loading a rewritten file gives back exactly the log that was written, the empty log included |
| LogFile.AppendThenLoad | db.js:24 | appending one record line to a file that ends in a newline (or is empty) makes the loader return the old log plus that record |
| Slug.Slugify | server.js:509-515 | a slug holds only lower-case letters, digits and hyphens, no two hyphens in a row, at most 32 characters, never a leading hyphen, and a trailing one only at full length |
| Slug.SlugEmptyIffNoAlnum | server.js:509-517 | with lower-casing limited to ASCII letters, the slug is empty, so the request is ignored, exactly when the raw name has no ASCII letter or digit |
| Slug.SlugifyFixpoint | server.js:509-515 | a well-formed slug is its own slug |
| Slug.TrailingHyphenSurvives | server.js:514-515 | 31 letters, a hyphen and a letter produce a 32-character slug that ends in a hyphen, and slugifying that slug again changes it |
| RoomDirectory.InitialRooms | server.js:31-34 | the starting directory is the six default rooms, in order, all public and undeletable |
| RoomDirectory.RoomsForUser | server.js:67-69 | the listed rooms keep directory order (an order-preserving subsequence), and each room occurs exactly as often as in the directory when it is public or has the user as a member, and not at all otherwise |
| RoomDirectory.FindIndex | server.js:536 | the index is -1 exactly when no room has the name; otherwise it is the first index with that name |
| RoomDirectory.FindRoom | server.js:448 | a room is found exactly when one has the name; it is the first such room |
| RoomDirectory.FindRoomUnique | server.js:448 | with distinct names, looking up a room's name finds that room |
| RoomDirectory.FirstNamedUnique | server.js:448 | the first room with a name is what the lookup returns |
| RoomDirectory.AdmitsFound | server.js:448-449 | the `room_msg` and `history` gate holds exactly when the first room with the name exists and the user may see it |
| RoomDirectory.Invitees | server.js:521-525 | the invitees keep the order of the sent list, repeats included: each trimmed, cut name occurs as often as it was sent when it is a known user other than the creator, and not at all otherwise |
| RoomDirectory.InviteesSnoc | server.js:521-525 | no names give no invitees; one more sent name adds its trimmed, cut form at the end exactly when it is known and not the creator |
| RoomDirectory.CreateRoom | server.js:509-528 | a room is created exactly when the slug is non-empty and unused; it is appended with the user as creator; a member list is present exactly when one was sent, and then it is the creator followed by the invitees of that list, in order |
| RoomDirectory.CreateKeepsNamesDistinct | server.js:517 | creation keeps room names distinct |
| RoomDirectory.DeleteRoom | server.js:535-540 | deletion happens exactly when the first room with the trimmed name was created by the user; the remaining directory keeps its order and every room not carrying that name, as often as before, and no room carrying it |
| RoomDirectory.MayDeleteAt | server.js:535-538 | only the first room carrying a name decides whether the user may delete that name: they may exactly when they created that room |
| RoomDirectory.DefaultRoomsSurviveDelete | server.js:538 | a default room is never removed while names are distinct |
| RoomDirectory.DeleteKeepsNamesDistinct | server.js:540 | deletion keeps room names distinct |
| RoomDirectory.SameNames | server.js:553 | comparing the two sorted name lists succeeds exactly when they hold the same multiset of names |
| RoomDirectory.Lookup | server.js:557 | every requested name resolves to a directory room of that name, in request order |
| RoomDirectory.ReorderRooms | server.js:547-557 | a reorder is accepted exactly when the request is an array whose names are, as a multiset, the user's visible room names; the result is the requested rooms in order, followed by the other rooms in their old order |
| RoomDirectory.AcceptedNamesKnown | server.js:553-557 | every name of an accepted order names a room of the directory |
| RoomDirectory.VisibleNamesKnown | server.js:551 | every name a user sees is a directory name |
| RoomDirectory.HiddenIsInvisible | server.js:556 | with distinct names, the rooms kept as hidden are exactly those the user cannot see |
| RoomDirectory.LookupVisible | server.js:557 | resolving the names of the visible rooms gives back the visible rooms |
| RoomDirectory.FrontVisible | server.js:557 | the rooms an accepted order resolves to are all visible to the user |
| RoomDirectory.HiddenNotVisible | server.js:556 | none of the hidden rooms is visible to the user |
| RoomDirectory.ReorderPermutation | server.js:551-557 | an accepted reorder is a permutation of the directory: no room is lost, added or copied |
| RoomDirectory.ReorderKeepsNamesDistinct | server.js:557 | an accepted reorder keeps room names distinct |
| RoomDirectory.ReorderShowsRequestedOrder | server.js:551-557 | after an accepted reorder the user's visible rooms are exactly the requested names, in the requested order |
| Sorting.Sort | server.js:553 | the result is sorted and holds the same multiset as the input |
| Sorting.SortEqIffSameMultiset | server.js:553 | two lists sort to the same list exactly when they hold the same multiset |
| Registry.JoinName | server.js:405 | the name is the longest prefix of the trimmed name that fits in 32 characters: the trimmed name itself when it fits, otherwise its first 32 characters |
| Registry.Join | server.js:404-419 | an empty name is ignored; a name held by a live connection is rejected and nothing changes; otherwise the name maps to exactly this connection and the connection's name becomes it |
| Registry.Close | server.js:573-581 | the connection leaves the set of the name it last joined under; a set left empty is removed; every other name keeps its connections |
| Registry.JoinKeepsValid | server.js:408-419 | after a join, every registered name has exactly one connection |
| Registry.CloseKeepsValid | server.js:573-581 | after a close, every registered name has exactly one connection |
| Registry.AtMostOneConnection | server.js:409 | in a valid registry a name holds at most one live connection |
| Registry.StaleAfterRejoin | server.js:573-581 | a connection that joins as one name, then as another, then closes stays registered under the first, and that name is rejected from then on |
| Fanout.Reached | server.js:367-387 | a connection is reached exactly when it is in the set of a name the audience addresses |
| Fanout.RoomReachesViewers | server.js:81-87 | a room frame reaches exactly the connections of names that may see the room |
| Fanout.PublicRoomReachesEveryone | server.js:82-83 | a public room frame reaches every registered connection |
| Fanout.DmReachesBothParties | server.js:502-503 | a direct message reaches exactly the connections of its recipient and its sender |
| Server.ImageOf | server.js:451 | an image reference is kept exactly when it is a string naming a file under `/uploads/`, and then unchanged |
| Server.InitialKnown | server.js:90-92 | the known users at start-up are the two bots plus every non-empty sender in the log |
| Server.OnJoin | server.js:404-427 | only the registry changes; an ignored join sends nothing and a rejected one sends `join_error` to this connection; a successful one sends, in order, the online names with this one added to everyone, the rooms the user may see, the known users and the confirmation to this connection |
| Server.OnHistory | server.js:429-443 | state unchanged; at most one reply, to this connection; for a room, a reply exactly when the user passes the room gate, holding the room's last 200 records; for a direct context, always a reply with the pair's last 200 messages; any other context gets none; the reply echoes the request's context, room and with fields, which the client uses to file it |
| Server.OnRoomMsg | server.js:445-463 | a record is stored exactly when the user passes the room gate; it is appended with the fresh id, the room, sender, text cut to 2000 characters, vetted image and time, sent to the room's audience, and the sender becomes known; a `known_users` broadcast with the sender added follows exactly when the sender was not yet known; otherwise nothing changes and nothing is sent |
| Server.OnDm | server.js:482-503 | a record is stored exactly when the trimmed recipient is non-empty and not the sender; it is appended with the fresh id, sender, recipient, cut text, vetted image and time, and sent to both parties, preceded by a `known_users` broadcast with the sender added exactly when the sender was not yet known; otherwise nothing changes and nothing is sent |
| Server.OnRooms | server.js:527-530 | a directory change replaces the rooms and is announced to everyone; an ignored request changes and sends nothing |
| Server.OnDeleteMsg | server.js:561-570 | with a non-empty id cut to 64 characters and a matching record of the user, the record is removed and `msg_deleted` goes to everyone; otherwise nothing changes and nothing is sent |
| Server.Dispatch | server.js:429-570 | no handler other than `join` touches the registry, and none forgets a known user |
| Server.Step | server.js:396-571 | a frame other than `join` from a connection that has not joined changes and sends nothing; only `join` touches the registry |
| Server.OnClose | server.js:573-584 | the connection leaves the registry; nothing is sent when it had not joined; otherwise the names still online go to everyone, and the connection's name is no longer among them when this was its only connection |
| Server.StepKeepsInv | server.js:404-570 | every frame keeps the registry valid and the room names distinct |
| Server.CloseKeepsInv | server.js:573-583 | closing a connection keeps the registry valid and the room names distinct |
| Server.StartInv | server.js:31-34 | the start state, with the default rooms and no connections, satisfies the invariant |
| Server.RunKeepsInv | server.js:396-584 | any sequence of received frames and closed connections keeps the invariant |
| Server.ReachableInv | server.js:365-584 | in every state reachable from start-up, each online name holds exactly one connection and room names are distinct |
| Server.StepLogStep | server.js:445-570 | a frame leaves the log as it was, appends one record, or removes one record |
| Server.StepStoresValidRecords | server.js:445-503 | every stored record comes from a joined connection, carries a non-empty id, names it as sender, has at most 2000 characters of text and a vetted image, and is a room message the sender may post in or a direct message to someone else |
| Server.DeleteNoticeOnlyOnSuccess | server.js:561-570 | `msg_deleted` goes out exactly when a joined user's delete request, with a non-empty id, removed one of their records |
| Server.OnlyDeleteSendsNotice | server.js:561-570 | no other frame produces `msg_deleted` |
| Server.RoomMsgReachesViewers | server.js:461-462 | a stored room message is sent as the stored record to exactly the connections of names that may see the room |
| Server.DmReachesParties | server.js:498-503 | when the `dm` handler stores a message, its last send carries the stored record to exactly the connections of the recipient and the sender |
| Server.LiveNameRejected | server.js:408-412 | joining under a name held by a live connection gets `join_error` and changes nothing |
| Server.RoomsChangeAnnounced | server.js:505-559 | the directory changes only through an accepted create, delete or reorder, and each such change is announced to everyone |
| ClaudePrompt.ContextHistory | server.js:200-203 | outside the assistant's room, exactly the room's newest 20 records; in the assistant's room, those same 20 records without the newest one (the prompt just saved) |
| ClaudePrompt.ContextWindow | server.js:200 | the last 20 of the newest 30 records of a room are the room's newest 20 records |
| ClaudePrompt.Turn | server.js:210-211 | a record becomes an assistant turn exactly when the assistant wrote it |
| ClaudePrompt.RawTurns | server.js:206-214 | one turn per usable record, in order, each turn made from the record at the same position; then the prompt as the final user turn |
| ClaudePrompt.RawTurnsSnoc | server.js:206-214 | no history gives only the prompt turn; one more record adds its turn just before the prompt exactly when it is usable |
| ClaudePrompt.Merge | server.js:217-224 | merging never lengthens the list and empties it only when it was empty; neighbouring turns alternate in role; the first and last roles are kept; the last content still ends with the last turn's content. Which turns are joined is pinned by MergeRun and MergeSplit |
| ClaudePrompt.MergeRun | server.js:217-224 | a run of turns of one role becomes one turn of that role whose content is their contents joined by newlines |
| ClaudePrompt.MergeSplit | server.js:219-223 | at a change of role the merge of the whole list is the merge of the part before followed by the merge of the part after, so turns of different roles are never joined and every text keeps its role |
| ClaudePrompt.MergeAlternating | server.js:217-224 | a list whose neighbouring turns already alternate in role comes through unchanged |
| ClaudePrompt.DropLeading | server.js:227 | the result is a suffix that starts with a user turn, and it is non-empty when any user turn exists |
| ClaudePrompt.ApiMessagesShape | server.js:205-228 | the messages sent start with a user turn, alternate roles, and end with a user turn whose content ends with the prompt |
| ClaudePrompt.FallbackUnused | server.js:228 | the fallback for an empty list never applies |
| ClaudePrompt.MergeKeepsText | server.js:217-224 | merging loses and reorders no text: the contents joined by newlines are the same before and after |
| ClaudePrompt.MergeIntoLast | server.js:220 | appending a turn to the last content extends the joined text by a newline and that turn's content |
| Uptime.Split | server.js:118-122 | hours, minutes and seconds are in range, and the parts add back up to the seconds given |
| Uptime.SplitOfTotal | server.js:119-122 | a span with parts in range is the split of its total, so the split is unique |
| ClientCache.CtxKey | public/app.js:48-51 | a room key is the room prefix followed by the room; a direct key is the direct prefix followed by the person |
| ClientCache.CtxKeyInjective | public/app.js:48-51 | two contexts with the same key are the same context |
| ClientCache.IsCurrent | public/app.js:324 | comparing keys with the open context is comparing contexts |
| ClientCache.AppendCapped | public/app.js:317-322 | the list gains the message at its end and keeps at most 200 entries, the newest ones |
| ClientCache.OnRoomMsg | public/app.js:314-332 | the room's list gains the message; its unread count goes up by one unless that room is open; no other list or count changes |
| ClientCache.Peer | public/app.js:335 | for one's own message or one addressed to oneself, oneself and the result are exactly the two parties, and the result is oneself only for a message to oneself; for anyone else's message it is the sender |
| ClientCache.OnDm | public/app.js:334-352 | the conversation with the other party gains the message; its count goes up by one only when someone else wrote it and the conversation is not open; nothing else changes |
| ClientCache.DmFiledUnderOtherParty | public/app.js:335-336 | the sender's echo and the recipient's copy are each filed under the other person |
| ClientCache.UnreadCount | public/app.js:298 | the count is zero exactly when every message is one's own or not newer than the last one seen |
| ClientCache.UnreadCountAppend | public/app.js:298 | the count over two runs of messages is the sum of the counts |
| ClientCache.OnHistory | public/app.js:282-305 | the reply replaces the context's list; only a direct context that is not open with a positive unread count takes that count; every other count is unchanged |
| ClientCache.OnMsgDeleted | public/app.js:363-365 | every list keeps, in order, exactly the messages without the deleted id, each as often as before; no list grows or disappears |
| ClientCache.MsgDeletedKeepsOthers | public/app.js:363-365 | a list that does not hold the id comes through unchanged |
| ClientCache.MsgDeletedIdempotent | public/app.js:363-365 | deleting the same id twice is the same as once |
| ClientSidebar.SpliceStart | public/app.js:421-422 | a start index inside the list is used as is; a negative one counts from the end; both are clamped to the list |
| ClientSidebar.SpliceRemoveOne | public/app.js:421 | when the start index is inside the list, the result is the list with the element at that index taken out (everything before and after it is kept in place, and the multiset loses that one element); otherwise the list is unchanged |
| ClientSidebar.SpliceInsert | public/app.js:422 | the result is one longer, holds the element at the clamped start index, keeps the elements before it in place and shifts the rest up by one, and its multiset gains exactly the element |
| ClientSidebar.DragDrop | public/app.js:415-423 | no order is sent exactly when nothing is dragged or a room is dropped on itself; a sent order contains the dragged room |
| ClientSidebar.DragDropPermutes | public/app.js:418-422 | dropping one listed room on another gives a permutation with the dragged room at the target's former index |
| ClientSidebar.DragDropStaleSource | public/app.js:419-421 | a dragged name missing from the list gives an order that is not a permutation of the list |
| ClientSidebar.DragDropAccepted | public/app.js:418-423 | an order built by dropping one visible room on another is accepted by the server |
| ClientSidebar.People | public/app.js:450 | every known or online name except the user and the two bots, each once |
| ClientSidebar.OnlineFirst | public/app.js:453-458 | no offline name comes before an online one |
| ClientSidebar.OnlineFirstPermutes | public/app.js:453-458 | grouping only reorders the list |

## Left out

- File I/O: `rooms.json` loading and its migration from plain strings, `saveRooms`, and the file system calls. The log file's contents are modelled as a string (`LogFile`), but not the calls.
- JSON encoding and parsing are abstract parameters. Frames are modelled after decoding: a frame that fails to parse is dropped by the source and does not appear here.
- A frame that parses to something other than an object, such as `null`, is not modelled: the source reads `data.type` at server.js:404 outside its `try`, so such a frame throws there. The model's decoded frames are always objects.
- A log line that parses to `null` is pushed into the loaded log by the source (db.js:12-13) and then makes `getKnownUsers` throw at `m.from` (db.js:59) during start-up (server.js:90). The model's line parser yields records only, so it cannot express this failure.
- The clock and the random id suffix are parameters (`Server.Env`). The source's id can in principle collide; the model assumes nothing about it.
- WebSocket state (`readyState`), the HTTP routes, uploads, link previews and `getLocalIP`: I/O outside the chat logic.
- The HomeBot responder (`handleBotCommand`, server.js:99-178): the replies to `!ping`, `!help`, `!who`, `!version` and `!uptime` are not modelled, because this model covers the message store, the room directory, the registry, the dispatcher and the prompt merge, not the bot's reply texts; they would also need the package version and the process uptime as parameters. Only the uptime arithmetic is modelled (`Uptime`).
- The `!claude` usage reply for an empty prompt (server.js:466-473), the reply saved when no API key is configured (server.js:182-187), the `claude_thinking` notice, and the call to the model API with its saved reply: the first two are plain records stored without a model call, left out with the bot responder above; the last two depend on an external service.
- Server.StepLogStep: a `room_msg` that starts with `!`, or any `room_msg` in the `claude` room, can make the source store a second record in the same step (a HomeBot reply, the usage reply or the not-configured reply, server.js:466-479 and 182-187). Since those replies are left out, this property and the single appended record of Server.OnRoomMsg hold for the model, not for every step of the source.
- Uptime.Split: the reply text formatting is left out; only the arithmetic split is modelled.
- Delivery multiplicity and the order of `user_list` and `known_users`: recipients and name lists are modelled as sets, so a connection receiving a frame twice is not distinguished.
- ClientSidebar.OnlineFirst: models only the online-first grouping of the sort, not the `localeCompare` order within each group, which depends on the locale.
- Text.Lower: `toLowerCase` is modelled for ASCII letters only; other characters are unchanged. JavaScript also lowers non-ASCII letters, and two of them become ASCII: U+212A (Kelvin sign) becomes `k`, and U+0130 (capital I with dot) becomes `i` followed by U+0307. So the source slugs a name made of the Kelvin sign to `k`, while the model gives the empty slug and ignores the request. Slug.SlugEmptyIffNoAlnum holds for the model's lowering only.
- Slug.SlugEmptyIffNoAlnum: stated for the ASCII-only lowering above; with JavaScript's full `toLowerCase`, a name whose only letters are the Kelvin sign or U+0130 still gets a non-empty slug.
- String lengths count code points, not UTF-16 code units, so `slice(0, n)` on text with astral characters is not modelled exactly.
- A missing `from`, `to` or `id` field is the empty string. JavaScript would render a missing sender as `undefined` in a prompt turn.
- The DOM rendering, notifications, `localStorage` of last-seen times, the service worker and reconnection in the client.
- ClientCache.OnHistory: the update of the last-seen time when history arrives for the open conversation is left out, because it writes to `localStorage`.

=== FILE: claude_prompt.dfy ===
/** The message list `handleClaudeMessage` in server.js sends to the model API: recent room
    history as alternating user/assistant turns, ending with the user's prompt. */
module ClaudePrompt {
  import opened Seqs
  import opened Text
  import opened MessageStore

  datatype Role = User | Assistant

  datatype Entry = Entry(role: Role, content: string)

  /** The sender name of the assistant's own records. */
  const ASSISTANT_NAME: string := "Claude"

  const COMMAND: string := "!claude"

  /** The records used as context: the last 20 of the room's last 30, and in the `claude` room
      without the newest one (the prompt itself, already saved). */
  function ContextHistory(log: Log, room: string): (r: seq<Message>)
    ensures |r| <= 20
    ensures forall m :: m in r ==> m in log && InRoom(room, m)
    ensures var h := RoomHistory(log, room, 20);
      if room == "claude" && |h| > 0 then r + [h[|h| - 1]] == h else r == h
  {
    var recent := SliceFromEnd(RoomHistory(log, room, 30), 20);
    ContextWindow(log, room);
    var r := if room == "claude" && |recent| > 0 then recent[..|recent| - 1] else recent;
    ContextFacts(log, room, recent, r);
    r
  }

  /** What dropping the newest record from the room's last 20 keeps. */
  lemma ContextFacts(log: Log, room: string, h: seq<Message>, r: seq<Message>)
    requires h == RoomHistory(log, room, 20)
    requires r == if room == "claude" && |h| > 0 then h[..|h| - 1] else h
    ensures |r| <= 20
    ensures forall m :: m in r ==> m in log && InRoom(room, m)
    ensures if room == "claude" && |h| > 0 then r + [h[|h| - 1]] == h else r == h
  {
    if room == "claude" && |h| > 0 {
      assert h == h[..|h| - 1] + [h[|h| - 1]];
    }
  }

  /** The last 20 of a room's last 30 records are its last 20 records. */
  lemma ContextWindow(log: Log, room: string)
    ensures SliceFromEnd(RoomHistory(log, room, 30), 20) == RoomHistory(log, room, 20)
  {
    var f := RoomHistory(log, room, 0);
    var h30 := RoomHistory(log, room, 30);
    var h20 := RoomHistory(log, room, 20);
    var w := SliceFromEnd(h30, 20);
    assert |w| == |h20|;
    calc {
      w;
      h30[|h30| - |w|..];
      f[|f| - |h30|..][|h30| - |w|..];
      { assert |f| - |h30| + (|h30| - |w|) == |f| - |w|; }
      f[|f| - |w|..];
      h20;
    }
  }

  /** A record that becomes a turn: it has text and is not a `!claude` command. */
  predicate Usable(m: Message) {
    m.text != "" && !StartsWith(m.text, COMMAND)
  }

  /** The turn for one record: the assistant's own words, or a user turn prefixed with the
      sender's name. */
  function Turn(m: Message): (r: Entry)
    ensures r.role == Assistant <==> m.from == ASSISTANT_NAME
  {
    if m.from == ASSISTANT_NAME then Entry(Assistant, m.text)
    else Entry(User, m.from + ": " + m.text)
  }

  /** `rawMessages`: one turn per usable record, then the prompt as a user turn. */
  function RawTurns(history: seq<Message>, prompt: string): (r: seq<Entry>)
    ensures |r| == |Filter(Usable, history)| + 1 && r[|r| - 1] == Entry(User, prompt)
    ensures forall i :: 0 <= i < |r| - 1 ==> r[i] == Turn(Filter(Usable, history)[i])
  {
    Map(Turn, Filter(Usable, history)) + [Entry(User, prompt)]
  }

  /** The turn list is built record by record: a record adds its turn just before the prompt
      when it is usable, and nothing otherwise. */
  lemma RawTurnsSnoc(history: seq<Message>, m: Message, prompt: string)
    ensures RawTurns([], prompt) == [Entry(User, prompt)]
    ensures var before := RawTurns(history, prompt);
      RawTurns(history + [m], prompt)
        == before[..|before| - 1] + (if Usable(m) then [Turn(m)] else []) + [Entry(User, prompt)]
  {
    var before := RawTurns(history, prompt);
    var f := Filter(Usable, history);
    var tail: seq<Message> := if Usable(m) then [m] else [];
    FilterAppend(Usable, history, [m]);
    assert Filter(Usable, [m]) == tail by {
      FilterHead(Usable, [m]);
      assert [m][1..] == [];
    }
    MapAppend(Turn, f, tail);
    assert Map(Turn, tail) == if Usable(m) then [Turn(m)] else [];
    assert before[..|before| - 1] == Map(Turn, f);
  }

  /** No two neighbouring turns share a role. */
  predicate Alternates(s: seq<Entry>) {
    forall i :: 0 <= i < |s| - 1 ==> s[i].role != s[i + 1].role
  }

  /** The merge loop: a turn with the same role as the previous output turn is appended to
      its content after a newline, any other turn is pushed. */
  function Merge(s: seq<Entry>): (r: seq<Entry>)
    ensures |r| <= |s|
    ensures |r| == 0 <==> |s| == 0
    ensures Alternates(r)
    ensures |s| > 0 ==> r[0].role == s[0].role && r[|r| - 1].role == s[|s| - 1].role
    ensures |s| > 0 ==> EndsWith(r[|r| - 1].content, s[|s| - 1].content)
  {
    if |s| == 0 then [] else MergeOne(Merge(s[..|s| - 1]), s[|s| - 1])
  }

  /** One iteration of the merge loop. */
  function MergeOne(acc: seq<Entry>, x: Entry): seq<Entry> {
    if |acc| > 0 && acc[|acc| - 1].role == x.role then
      acc[..|acc| - 1] + [Entry(x.role, acc[|acc| - 1].content + "\n" + x.content)]
    else
      acc + [x]
  }

  /** Every turn of the list has role `ro`. */
  predicate AllRole(s: seq<Entry>, ro: Role) {
    forall i :: 0 <= i < |s| ==> s[i].role == ro
  }

  /** A run of turns of one role merges into a single turn of that role holding their
      contents joined by newlines. */
  lemma {:induction false} MergeRun(s: seq<Entry>, ro: Role)
    requires |s| > 0 && AllRole(s, ro)
    ensures Merge(s) == [Entry(ro, JoinLines(Contents(s)))]
    decreases |s|
  {
    var init := s[..|s| - 1];
    var x := s[|s| - 1];
    assert s == init + [x];
    if |init| > 0 {
      assert AllRole(init, ro) by {
        forall i | 0 <= i < |init| ensures init[i].role == ro {
          assert init[i] == s[i];
        }
      }
      MergeRun(init, ro);
      var c := JoinLines(Contents(init));
      assert Merge(s) == MergeOne([Entry(ro, c)], x);
      JoinedSnoc(init, x);
    } else {
      assert Contents(s) == [x.content];
    }
  }

  /** The joined contents of a list with one more turn. */
  lemma JoinedSnoc(init: seq<Entry>, x: Entry)
    requires |init| > 0
    ensures JoinLines(Contents(init + [x])) == JoinLines(Contents(init)) + "\n" + x.content
  {
    assert Contents(init + [x]) == Contents(init) + [x.content];
    JoinLinesSnoc(Contents(init), x.content);
  }

  /** One merge step on a list with a non-empty tail only touches the tail. */
  lemma MergeOneAppend(p: seq<Entry>, q: seq<Entry>, y: Entry)
    requires |q| > 0
    ensures MergeOne(p + q, y) == p + MergeOne(q, y)
  {
    assert (p + q)[|p + q| - 1] == q[|q| - 1];
    assert (p + q)[..|p + q| - 1] == p + q[..|q| - 1];
  }

  /** Where the role changes, merging the whole list is merging the two sides apart: turns
      of different roles are never joined. */
  lemma {:induction false} MergeSplit(a: seq<Entry>, b: seq<Entry>)
    requires |a| > 0 && |b| > 0 && a[|a| - 1].role != b[0].role
    ensures Merge(a + b) == Merge(a) + Merge(b)
    decreases |b|
  {
    var init := b[..|b| - 1];
    var y := b[|b| - 1];
    assert (a + b)[..|a + b| - 1] == a + init;
    assert (a + b)[|a + b| - 1] == y;
    if |init| == 0 {
      assert a + init == a;
      assert Merge(b) == [y] by {
        assert b[..|b| - 1] == [];
      }
    } else {
      MergeSplit(a, init);
      MergeOneAppend(Merge(a), Merge(init), y);
    }
  }

  /** A list that already alternates is left as it is. */
  lemma {:induction false} MergeAlternating(s: seq<Entry>)
    requires Alternates(s)
    ensures Merge(s) == s
    decreases |s|
  {
    if |s| > 0 {
      var init := s[..|s| - 1];
      assert Alternates(init) by {
        forall i | 0 <= i < |init| - 1 ensures init[i].role != init[i + 1].role {
          assert init[i] == s[i] && init[i + 1] == s[i + 1];
        }
      }
      MergeAlternating(init);
      assert s == init + [s[|s| - 1]];
    }
  }

  /** The `shift` loop: leading turns that are not the user's are dropped. */
  function DropLeading(s: seq<Entry>): (r: seq<Entry>)
    ensures |r| <= |s| && r == s[|s| - |r|..]
    ensures |r| > 0 ==> r[0].role == User
    ensures (exists i :: 0 <= i < |s| && s[i].role == User) ==> |r| > 0
  {
    if |s| == 0 || s[0].role == User then s
    else DropLeading(s[1..])
  }

  /** `apiMessages`, with the fallback for an empty list. */
  function ApiMessages(history: seq<Message>, prompt: string): seq<Entry> {
    var merged := DropLeading(Merge(RawTurns(history, prompt)));
    if |merged| == 0 then [Entry(User, prompt)] else merged
  }

  /** The list sent to the API starts with a user turn, alternates roles, and ends with a
      user turn whose content ends with the prompt. */
  lemma ApiMessagesShape(history: seq<Message>, prompt: string)
    ensures var r := ApiMessages(history, prompt);
      && |r| > 0
      && r[0].role == User
      && Alternates(r)
      && r[|r| - 1].role == User
      && EndsWith(r[|r| - 1].content, prompt)
  {
    var raw := RawTurns(history, prompt);
    var merged := Merge(raw);
    assert |merged| > 0 && merged[|merged| - 1].role == User && Alternates(merged);
    var r := DropLeading(merged);
    LastUserKept(merged);
    SuffixAlternates(merged, |merged| - |r|);
    assert EndsWith(merged[|merged| - 1].content, prompt);
  }

  /** Dropping leading turns keeps a final user turn, and the list then is non-empty. */
  lemma LastUserKept(s: seq<Entry>)
    requires |s| > 0 && s[|s| - 1].role == User
    ensures var r := DropLeading(s); |r| > 0 && r[|r| - 1] == s[|s| - 1]
  {
    var r := DropLeading(s);
    assert |r| > 0 by {
      assert 0 <= |s| - 1 < |s| && s[|s| - 1].role == User;
    }
    assert r[|r| - 1] == s[|s| - |r|..][|r| - 1];
  }

  /** A suffix of an alternating list alternates. */
  lemma SuffixAlternates(s: seq<Entry>, k: nat)
    requires k <= |s| && Alternates(s)
    ensures Alternates(s[k..])
  {
    forall i | 0 <= i < |s[k..]| - 1 ensures s[k..][i].role != s[k..][i + 1].role {
      assert s[k..][i] == s[k + i] && s[k..][i + 1] == s[k + i + 1];
    }
  }

  /** The fallback for an empty list never applies: the last turn is always the user's. */
  lemma FallbackUnused(history: seq<Message>, prompt: string)
    ensures |DropLeading(Merge(RawTurns(history, prompt)))| > 0
  {
    var merged := Merge(RawTurns(history, prompt));
    assert merged[|merged| - 1].role == User;
  }

  function Contents(s: seq<Entry>): (r: seq<string>)
    ensures |r| == |s|
    ensures forall i :: 0 <= i < |s| ==> r[i] == s[i].content
  {
    seq(|s|, i requires 0 <= i < |s| => s[i].content)
  }

  /** Merging loses and reorders no text: the merged contents, joined with newlines, are the
      original contents joined with newlines. */
  lemma {:induction false} MergeKeepsText(s: seq<Entry>)
    ensures JoinLines(Contents(Merge(s))) == JoinLines(Contents(s))
  {
    if |s| > 0 {
      var init := s[..|s| - 1];
      var x := s[|s| - 1];
      assert s == init + [x];
      assert Contents(s) == Contents(init) + [x.content];
      MergeKeepsText(init);
      MergeOneText(Merge(init), x);
      JoinLinesSnoc(Contents(init), x.content);
    }
  }

  /** One merge step extends the joined text by a newline and the turn's content. */
  lemma MergeOneText(acc: seq<Entry>, x: Entry)
    ensures JoinLines(Contents(MergeOne(acc, x))) ==
      if |acc| == 0 then x.content else JoinLines(Contents(acc)) + "\n" + x.content
  {
    if |acc| > 0 && acc[|acc| - 1].role == x.role {
      MergeIntoLast(acc, x);
    } else {
      assert Contents(acc + [x]) == Contents(acc) + [x.content];
      JoinLinesSnoc(Contents(acc), x.content);
    }
  }

  /** Appending a turn to the content of the last one extends the joined text by a newline
      and the turn's content. */
  lemma MergeIntoLast(acc: seq<Entry>, x: Entry)
    requires |acc| > 0
    ensures var last := acc[|acc| - 1];
      JoinLines(Contents(acc[..|acc| - 1] + [Entry(x.role, last.content + "\n" + x.content)]))
        == JoinLines(Contents(acc)) + "\n" + x.content
  {
    var last := acc[|acc| - 1];
    var front := acc[..|acc| - 1];
    assert Contents(acc) == Contents(front) + [last.content];
    assert Contents(front + [Entry(x.role, last.content + "\n" + x.content)])
        == Contents(front) + [last.content + "\n" + x.content];
    JoinLinesSnoc(Contents(front), last.content + "\n" + x.content);
    JoinLinesSnoc(Contents(front), last.content);
  }
}

=== FILE: client_cache.dfy ===
/** The message cache of the browser client (public/app.js): per-context message lists keyed
    by `ctxKey`, unread counters, and the updates `room_msg`, `dm`, `history` and
    `msg_deleted` make to them. */
module ClientCache {
  import opened Wrappers
  import opened Seqs
  import opened Text
  import opened MessageStore

  /** `{ type: 'room', room }` or `{ type: 'dm', with }`. */
  datatype Context = RoomCtx(room: string) | DmCtx(with: string)

  /** `messageHistory`: key to cached messages. */
  type Cache = map<string, seq<Message>>

  /** `unread`: key to count; a missing key counts as zero. */
  type Unread = map<string, nat>

  /** The client keeps at most this many messages per context. */
  const CACHE_LIMIT: nat := 200

  const ROOM_PREFIX: string := "room:"
  const DM_PREFIX: string := "dm:"

  /** `ctxKey`: `"room:" + room` or `"dm:" + with`. */
  function CtxKey(ctx: Context): (r: string)
    ensures ctx.RoomCtx? ==> StartsWith(r, ROOM_PREFIX) && r[|ROOM_PREFIX|..] == ctx.room
    ensures ctx.DmCtx? ==> StartsWith(r, DM_PREFIX) && r[|DM_PREFIX|..] == ctx.with
  {
    match ctx
    case RoomCtx(room) => ROOM_PREFIX + room
    case DmCtx(with) => DM_PREFIX + with
  }

  /** Distinct contexts have distinct keys: a room and a person never share a cache entry. */
  lemma CtxKeyInjective(a: Context, b: Context)
    requires CtxKey(a) == CtxKey(b)
    ensures a == b
  {
    if a.RoomCtx? != b.RoomCtx? {
      KeyHead(a);
      KeyHead(b);
      assert false;
    }
  }

  /** Comparing keys, as the client does, is comparing contexts. */
  lemma IsCurrent(current: Option<Context>, ctx: Context)
    ensures (current.Some? && CtxKey(current.value) == CtxKey(ctx)) <==> current == Some(ctx)
  {
    if current.Some? && CtxKey(current.value) == CtxKey(ctx) {
      CtxKeyInjective(current.value, ctx);
    }
  }

  /** A key's first character tells the kind of context. */
  lemma KeyHead(ctx: Context)
    ensures |CtxKey(ctx)| > 0 && CtxKey(ctx)[0] == if ctx.RoomCtx? then 'r' else 'd'
  {
  }

  /** `messageHistory[key] || []`. */
  function Cached(cache: Cache, key: string): seq<Message> {
    if key in cache then cache[key] else []
  }

  /** `unread[key] || 0`. */
  function Count(unread: Unread, key: string): nat {
    if key in unread then unread[key] else 0
  }

  /** Push `m` onto a context's list, then keep only the newest 200 when it grew past that. */
  function AppendCapped(list: seq<Message>, m: Message): (r: seq<Message>)
    ensures 0 < |r| <= CACHE_LIMIT
    ensures r[|r| - 1] == m
    ensures |list| < CACHE_LIMIT ==> r == list + [m]
    ensures |list| >= CACHE_LIMIT ==> |r| == CACHE_LIMIT
    ensures r == (list + [m])[|list| + 1 - |r|..]
  {
    var grown := list + [m];
    if |grown| > CACHE_LIMIT then SliceFromEnd(grown, CACHE_LIMIT) else grown
  }

  /** The client state the handlers change. */
  datatype View = View(cache: Cache, unread: Unread)

  /** The cache and counter update for one message filed under `key`: the list grows by the
      message (capped), and the counter of a context that is not open goes up by one when
      `counts` holds. */
  function File(v: View, key: string, m: Message, current: Option<Context>, counts: bool): (r: View)
    ensures key in r.cache && r.cache[key] == AppendCapped(Cached(v.cache, key), m)
    ensures forall k :: k != key ==> Cached(r.cache, k) == Cached(v.cache, k) && Count(r.unread, k) == Count(v.unread, k)
    ensures Count(r.unread, key) ==
      if counts && (current.None? || CtxKey(current.value) != key) then Count(v.unread, key) + 1
      else Count(v.unread, key)
  {
    var cache := v.cache[key := AppendCapped(Cached(v.cache, key), m)];
    if current.Some? && CtxKey(current.value) == key then View(cache, v.unread)
    else if counts then View(cache, v.unread[key := Count(v.unread, key) + 1])
    else View(cache, v.unread)
  }

  /** The `room_msg` case: filed under the room; counted unless the room is open. */
  function OnRoomMsg(v: View, m: Message, current: Option<Context>): (r: View)
    ensures var key := CtxKey(RoomCtx(m.room));
      && key in r.cache && r.cache[key] == AppendCapped(Cached(v.cache, key), m)
      && (forall k :: k != key ==> Cached(r.cache, k) == Cached(v.cache, k) && Count(r.unread, k) == Count(v.unread, k))
      && Count(r.unread, key) == Count(v.unread, key) + (if current == Some(RoomCtx(m.room)) then 0 else 1)
  {
    IsCurrent(current, RoomCtx(m.room));
    File(v, ROOM_PREFIX + m.room, m, current, true)
  }

  /** The other party of a direct message: the recipient of one's own message, otherwise the
      sender. For a message one is party to, the two parties are oneself and the peer, and
      the peer is someone else unless one wrote to oneself. */
  function Peer(me: string, m: Message): (r: string)
    ensures me == m.from || me == m.to ==> {me, r} == {m.from, m.to}
    ensures me == m.from || me == m.to ==> (r == me <==> m.from == m.to)
    ensures me != m.from ==> r == m.from
  {
    if m.from == me then m.to else m.from
  }

  /** The `dm` case: filed under the other party; counted only when someone else wrote it and
      the conversation is not open. */
  function OnDm(v: View, me: string, m: Message, current: Option<Context>): (r: View)
    ensures var key := CtxKey(DmCtx(Peer(me, m)));
      && key in r.cache && r.cache[key] == AppendCapped(Cached(v.cache, key), m)
      && (forall k :: k != key ==> Cached(r.cache, k) == Cached(v.cache, k) && Count(r.unread, k) == Count(v.unread, k))
      && Count(r.unread, key) == Count(v.unread, key) +
           (if m.from != me && current != Some(DmCtx(Peer(me, m))) then 1 else 0)
  {
    IsCurrent(current, DmCtx(Peer(me, m)));
    File(v, DM_PREFIX + Peer(me, m), m, current, m.from != me)
  }

  /** A direct message is filed under the same key whether it is the echo of one's own message
      or the recipient's copy: both sides see the conversation under the other person. */
  lemma DmFiledUnderOtherParty(a: string, b: string, m: Message)
    requires m.from == a && m.to == b && a != b
    ensures CtxKey(DmCtx(Peer(a, m))) == CtxKey(DmCtx(b))
    ensures CtxKey(DmCtx(Peer(b, m))) == CtxKey(DmCtx(a))
  {
  }

  /** The number of messages counted unread after an absence: by someone else and newer than
      the last one seen. */
  function UnreadCount(msgs: seq<Message>, me: string, lastSeen: int): (r: nat)
    ensures r <= |msgs|
    ensures r == 0 <==> forall m :: m in msgs ==> m.from == me || m.ts <= lastSeen
  {
    var newer := Filter(Fresh(me, lastSeen), msgs);
    assert |newer| > 0 ==> newer[0] in newer;
    |newer|
  }

  function Fresh(me: string, lastSeen: int): Message -> bool {
    (m: Message) => m.from != me && m.ts > lastSeen
  }

  /** Counting over two stretches of messages adds up. */
  lemma UnreadCountAppend(a: seq<Message>, b: seq<Message>, me: string, lastSeen: int)
    ensures UnreadCount(a + b, me, lastSeen) == UnreadCount(a, me, lastSeen) + UnreadCount(b, me, lastSeen)
  {
    FilterAppend(Fresh(me, lastSeen), a, b);
  }

  /** The `history` case: the reply replaces the cached list; for a direct-message context
      that is not open, a positive offline unread count replaces the counter. */
  function OnHistory(v: View, ctx: Context, msgs: seq<Message>, me: string, lastSeen: int,
                     current: Option<Context>): (r: View)
    ensures r.cache == v.cache[CtxKey(ctx) := msgs]
    ensures forall k :: k != CtxKey(ctx) ==> Count(r.unread, k) == Count(v.unread, k)
    ensures Count(r.unread, CtxKey(ctx)) ==
      if ctx.DmCtx? && (current.None? || CtxKey(current.value) != CtxKey(ctx)) && UnreadCount(msgs, me, lastSeen) > 0
      then UnreadCount(msgs, me, lastSeen)
      else Count(v.unread, CtxKey(ctx))
  {
    var key := CtxKey(ctx);
    var cache := v.cache[key := msgs];
    if current.Some? && CtxKey(current.value) == key then View(cache, v.unread)
    else if ctx.DmCtx? then
      var n := UnreadCount(msgs, me, lastSeen);
      if n > 0 then View(cache, v.unread[key := n]) else View(cache, v.unread)
    else View(cache, v.unread)
  }

  function NotId(id: string): Message -> bool {
    (m: Message) => m.id != id
  }

  /** The `msg_deleted` case: every cached list loses every message with that id. */
  function OnMsgDeleted(cache: Cache, id: string): (r: Cache)
    ensures r.Keys == cache.Keys
    ensures forall k :: k in r ==> forall m :: m in r[k] <==> m in cache[k] && m.id != id
    ensures forall k :: k in r ==> |r[k]| <= |cache[k]|
    ensures forall k :: k in r ==> Subseq(r[k], cache[k]) && KeepsCounts(NotId(id), r[k], cache[k])
  {
    assert forall k :: k in cache ==>
      Subseq(Filter(NotId(id), cache[k]), cache[k]) && KeepsCounts(NotId(id), Filter(NotId(id), cache[k]), cache[k]) by {
      forall k | k in cache
        ensures Subseq(Filter(NotId(id), cache[k]), cache[k]) && KeepsCounts(NotId(id), Filter(NotId(id), cache[k]), cache[k])
      {
        FilterSubseq(NotId(id), cache[k]);
        FilterCounts(NotId(id), cache[k]);
      }
    }
    map k | k in cache :: Filter(NotId(id), cache[k])
  }

  /** A cached list that does not hold the deleted id comes through `msg_deleted` unchanged. */
  lemma MsgDeletedKeepsOthers(cache: Cache, id: string, k: string)
    requires k in cache
    ensures var r := OnMsgDeleted(cache, id);
      && (forall m :: m in cache[k] ==> m.id != id) ==> r[k] == cache[k]
  {
    if forall m :: m in cache[k] ==> m.id != id {
      FilterAll(NotId(id), cache[k]);
    }
  }

  /** Deleting an id twice is the same as once. */
  lemma MsgDeletedIdempotent(cache: Cache, id: string)
    ensures OnMsgDeleted(OnMsgDeleted(cache, id), id) == OnMsgDeleted(cache, id)
  {
    var once := OnMsgDeleted(cache, id);
    forall k | k in once ensures Filter(NotId(id), once[k]) == once[k] {
      FilterAll(NotId(id), once[k]);
    }
  }
}

=== FILE: client_sidebar.dfy ===
/** The sidebar computations of the browser client (public/app.js): the room order a
    drag-and-drop sends to the server, and the people list. */
module ClientSidebar {
  import opened Wrappers
  import opened Seqs
  import opened RoomDirectory

  /** The index `Array.prototype.splice` starts at for `start` on a list of length `len`: a
      negative start counts from the end, and both are clamped to the list. */
  function SpliceStart(len: nat, start: int): (r: nat)
    ensures r <= len
    ensures 0 <= start <= len ==> r == start
    ensures start < 0 && len + start >= 0 ==> r == len + start
  {
    if start < 0 then (if len + start < 0 then 0 else len + start)
    else if start > len then len
    else start
  }

  /** `s.splice(start, 1)`: removes the element at the start index, if there is one; the
      elements before it keep their places and the ones after move up by one. */
  function SpliceRemoveOne<T>(s: seq<T>, start: int): (r: seq<T>)
    ensures var k := SpliceStart(|s|, start);
      k < |s| ==>
        && |r| == |s| - 1
        && r[..k] == s[..k] && r[k..] == s[k + 1..]
        && multiset(r) + multiset{s[k]} == multiset(s)
    ensures SpliceStart(|s|, start) == |s| ==> r == s
  {
    var k := SpliceStart(|s|, start);
    if k < |s| then RemoveAt(s, k) else s
  }

  /** `s.splice(start, 0, x)`: inserts `x` at the start index; the elements before it keep
      their places and the ones from there on move down by one. */
  function SpliceInsert<T>(s: seq<T>, start: int, x: T): (r: seq<T>)
    ensures var k := SpliceStart(|s|, start);
      && |r| == |s| + 1
      && r[k] == x && r[..k] == s[..k] && r[k + 1..] == s[k..]
      && multiset(r) == multiset(s) + multiset{x}
  {
    InsertAt(s, SpliceStart(|s|, start), x)
  }

  /** The `drop` handler: the room names with the dragged room taken out and put back at the
      index the drop target had. `None` when nothing is dragged or a room is dropped on itself. */
  function DragDrop(names: seq<string>, src: Option<string>, target: string): (r: Option<seq<string>>)
    ensures r.None? <==> src.None? || src.value == "" || src.value == target
    ensures r.Some? ==> src.value in r.value
  {
    if src.None? || src.value == "" || src.value == target then None
    else
      var fromIdx := IndexOf(names, src.value);
      var toIdx := IndexOf(names, target);
      var removed := SpliceRemoveOne(names, fromIdx);
      Some(SpliceInsert(removed, toIdx, src.value))
  }

  /** Dragging a listed room onto another listed room yields a permutation of the names with
      the dragged room at the target's former index. */
  lemma DragDropPermutes(names: seq<string>, src: string, target: string)
    requires src in names && target in names && src != "" && src != target
    ensures var r := DragDrop(names, Some(src), target);
      && r.Some?
      && multiset(r.value) == multiset(names)
      && r.value[IndexOf(names, target)] == src
  {
    var fromIdx := IndexOf(names, src);
    var removed := RemoveAt(names, fromIdx);
    assert multiset(removed) + multiset{src} == multiset(names);
  }

  /** A dragged name missing from the list (the list changed under the drag) yields a list
      that is not a permutation of the current names: `splice(-1, 1)` drops the last name. */
  lemma DragDropStaleSource(names: seq<string>, src: string, target: string)
    requires src !in names && src != "" && src != target
    ensures var r := DragDrop(names, Some(src), target);
      r.Some? && multiset(r.value) != multiset(names)
  {
    var r := DragDrop(names, Some(src), target).value;
    assert src in multiset(r);
  }

  /** Dropping one visible room on another sends an order the server accepts. */
  lemma DragDropAccepted(rooms: Directory, user: string, src: string, target: string)
    requires var names := Names(RoomsForUser(rooms, user));
      src in names && target in names && src != "" && src != target
    ensures var r := DragDrop(Names(RoomsForUser(rooms, user)), Some(src), target);
      r.Some? && ReorderRooms(rooms, user, r).Some?
  {
    DragDropPermutes(Names(RoomsForUser(rooms, user)), src, target);
  }

  // ---------------------------------------------------------------- people

  /** Neither the user nor one of the two bots. */
  function Listed(me: string): string -> bool {
    (u: string) => u != me && u != "HomeBot" && u != "Claude"
  }

  /** `[...new Set([...knownUsers, ...onlineUsers])].filter(...)`: every known or online
      name once, in order of first appearance, without the user and the bots. */
  function People(known: seq<string>, online: seq<string>, me: string): (r: seq<string>)
    ensures NoDups(r)
    ensures forall u :: u in r <==> (u in known || u in online) && u != me && u != "HomeBot" && u != "Claude"
  {
    FilterNoDups(Listed(me), Dedup(known + online));
    Filter(Listed(me), Dedup(known + online))
  }

  function IsOnline(online: seq<string>): string -> bool {
    (u: string) => u in online
  }

  /** The sort's grouping: online names first, then the others. */
  function OnlineFirst(people: seq<string>, online: seq<string>): (r: seq<string>)
    ensures forall i, j :: 0 <= i < j < |r| && r[j] in online ==> r[i] in online
  {
    var on := Filter(IsOnline(online), people);
    var off := Filter(Not(IsOnline(online)), people);
    assert forall j :: |on| <= j < |on + off| ==> (on + off)[j] !in online by {
      forall j | |on| <= j < |on + off| ensures (on + off)[j] !in online {
        assert (on + off)[j] in off;
      }
    }
    assert forall i :: 0 <= i < |on| ==> (on + off)[i] in online by {
      forall i | 0 <= i < |on| ensures (on + off)[i] in online {
        assert (on + off)[i] in on;
      }
    }
    on + off
  }

  /** The grouping only reorders the list. */
  lemma OnlineFirstPermutes(people: seq<string>, online: seq<string>)
    ensures multiset(OnlineFirst(people, online)) == multiset(people)
  {
    FilterPartition(IsOnline(online), people);
  }
}

=== FILE: fanout.dfy ===
/** Recipient resolution of server.js: `broadcast`, `sendToUser` and `broadcastToRoom` as the
    set of connections a frame is written to. */
module Fanout {
  import opened Registry
  import opened RoomDirectory

  /** Who a frame is addressed to: every registered name, or the listed names. */
  datatype Audience = Everyone | Users(names: seq<string>)

  /** The name is one the audience addresses. */
  predicate Addresses(a: Audience, name: string) {
    a.Everyone? || name in a.names
  }

  /** The connections a frame for `a` is written to: every connection in the set of an
      addressed name. A name without an entry reaches nobody (`sendToUser` returns early). */
  function Reached(reg: Registry, a: Audience): (r: set<ConnId>)
    ensures forall c :: c in r <==> exists n :: Addresses(a, n) && c in ConnsOf(reg, n)
  {
    var r := set n, c | n in reg.clients && Addresses(a, n) && c in reg.clients[n] :: c;
    assert forall c :: c in r <==> exists n :: Addresses(a, n) && c in ConnsOf(reg, n) by {
      forall c ensures c in r <==> exists n :: Addresses(a, n) && c in ConnsOf(reg, n) {
        if c in r {
          var n :| n in reg.clients && Addresses(a, n) && c in reg.clients[n];
          assert c in ConnsOf(reg, n);
        }
        if exists n :: Addresses(a, n) && c in ConnsOf(reg, n) {
          var n :| Addresses(a, n) && c in ConnsOf(reg, n);
          assert n in reg.clients && c in reg.clients[n];
        }
      }
    }
    r
  }

  /** `broadcastToRoom`: a public room goes to everyone, a private room to its members. */
  function RoomAudience(room: Room): Audience {
    if room.members.None? then Everyone else Users(room.members.value)
  }

  /** A direct message goes to the recipient and is echoed to the sender. */
  function DmAudience(from: string, to: string): Audience {
    Users([to, from])
  }

  /** A room frame reaches exactly the connections of the names that may see the room: the
      delivery rule and the visibility rule of `getRoomsForUser` agree. */
  lemma RoomReachesViewers(reg: Registry, room: Room, c: ConnId)
    ensures c in Reached(reg, RoomAudience(room)) <==> exists n :: CanSee(n, room) && c in ConnsOf(reg, n)
  {
    if c in Reached(reg, RoomAudience(room)) {
      var n :| Addresses(RoomAudience(room), n) && c in ConnsOf(reg, n);
      assert CanSee(n, room);
    }
    if n :| CanSee(n, room) && c in ConnsOf(reg, n) {
      assert Addresses(RoomAudience(room), n);
    }
  }

  /** A public room frame reaches every registered connection. */
  lemma PublicRoomReachesEveryone(reg: Registry, room: Room, n: string)
    requires room.members.None?
    ensures ConnsOf(reg, n) <= Reached(reg, RoomAudience(room))
  {
    forall c | c in ConnsOf(reg, n) ensures c in Reached(reg, RoomAudience(room)) {
      assert Addresses(RoomAudience(room), n);
    }
  }

  /** A direct message reaches exactly the connections of its recipient and its sender. */
  lemma DmReachesBothParties(reg: Registry, from: string, to: string, c: ConnId)
    ensures c in Reached(reg, DmAudience(from, to)) <==> c in ConnsOf(reg, to) || c in ConnsOf(reg, from)
  {
    if c in ConnsOf(reg, to) {
      assert Addresses(DmAudience(from, to), to);
    }
    if c in ConnsOf(reg, from) {
      assert Addresses(DmAudience(from, to), from);
    }
  }
}

=== FILE: log_file.dfy ===
/** The durable side of db.js: the newline-delimited log file, the startup loader that skips
    blank and malformed lines, the per-record append and the whole-file rewrite after a
    deletion. JSON itself is abstracted into an `encode`/`parse` pair. */
module LogFile {
  import opened Wrappers
  import opened Seqs
  import opened Text
  import opened MessageStore

  /** `s.split('\n')`. */
  function Lines(s: string): (r: seq<string>)
    ensures |r| >= 1
    ensures forall l :: l in r ==> '\n' !in l
  {
    if |s| == 0 then [""]
    else
      var t := Lines(s[1..]);
      if s[0] == '\n' then [""] + t
      else [[s[0]] + t[0]] + t[1..]
  }

  /** The lines the loader keeps: blank lines (after `trim`) and lines `parse` rejects are dropped. */
  function LoadLines(lines: seq<string>, parse: string -> Option<Message>): Log {
    if |lines| == 0 then [] else LoadLine(lines[0], parse) + LoadLines(lines[1..], parse)
  }

  /** The records one line contributes: none for a blank or unparsable line, else one. */
  function LoadLine(line: string, parse: string -> Option<Message>): (r: Log)
    ensures |r| <= 1
  {
    if Blank(line) then []
    else match parse(line) case Some(m) => [m] case None => []
  }

  /** `!l.trim()`: the line holds only white space. */
  predicate Blank(line: string) {
    Trim(line) == []
  }

  /** The startup loader (db.js lines 9-19). */
  function Load(content: string, parse: string -> Option<Message>): Log {
    LoadLines(Lines(content), parse)
  }

  /** One encoded record per message, in log order. */
  function Encodes(log: Log, encode: Message -> string): (r: seq<string>)
    ensures |r| == |log|
  {
    if |log| == 0 then [] else [encode(log[0])] + Encodes(log[1..], encode)
  }

  /** `rewriteFile`: every record on its own line, with a final newline unless the file is empty. */
  function Rewrite(log: Log, encode: Message -> string): string {
    var content := JoinLines(Encodes(log, encode));
    if content == [] then [] else content + "\n"
  }

  /** The file after `saveMessage`'s `appendFileSync`. */
  function AppendRecord(content: string, m: Message, encode: Message -> string): string {
    content + encode(m) + "\n"
  }

  /** What the model assumes of JSON: one record encodes to one non-blank line that parses back to it. */
  ghost predicate RoundTrips(encode: Message -> string, parse: string -> Option<Message>) {
    forall m :: '\n' !in encode(m) && !Blank(encode(m)) && parse(encode(m)) == Some(m)
  }

  /** Splitting at a newline splits the line list. */
  lemma {:induction false} LinesAround(p: string, q: string)
    ensures Lines(p + "\n" + q) == Lines(p) + Lines(q)
    decreases |p|
  {
    if |p| > 0 {
      assert (p + "\n" + q)[1..] == p[1..] + "\n" + q;
      LinesAround(p[1..], q);
    } else {
      assert p + "\n" + q == "\n" + q;
    }
  }

  /** A string without newlines is a single line. */
  lemma {:induction false} LinesOfOneLine(s: string)
    requires '\n' !in s
    ensures Lines(s) == [s]
    decreases |s|
  {
    if |s| > 0 {
      LinesOfOneLine(s[1..]);
      assert s == [s[0]] + s[1..];
    }
  }

  /** Splitting a join of newline-free lines gives the lines back. */
  lemma {:induction false} LinesOfJoin(xs: seq<string>)
    requires |xs| > 0
    requires forall x :: x in xs ==> '\n' !in x
    ensures Lines(JoinLines(xs)) == xs
    decreases |xs|
  {
    LinesOfOneLine(xs[0]);
    if |xs| > 1 {
      LinesAround(xs[0], JoinLines(xs[1..]));
      LinesOfJoin(xs[1..]);
      assert xs == [xs[0]] + xs[1..];
    }
  }

  /** Loading distributes over a concatenation of line lists. */
  lemma LoadLinesAppend(a: seq<string>, b: seq<string>, parse: string -> Option<Message>)
    ensures LoadLines(a + b, parse) == LoadLines(a, parse) + LoadLines(b, parse)
  {
    LoadLinesFlat(a + b, parse);
    LoadLinesFlat(a, parse);
    LoadLinesFlat(b, parse);
    FlatMapAppend(Loader(parse), a, b);
  }

  /** The loader as a function of one line. */
  function Loader(parse: string -> Option<Message>): string -> Log {
    line => LoadLine(line, parse)
  }

  /** The loader flat-maps the per-line loader over the lines. */
  lemma {:induction false} LoadLinesFlat(lines: seq<string>, parse: string -> Option<Message>)
    ensures LoadLines(lines, parse) == FlatMap(Loader(parse), lines)
  {
    if |lines| > 0 {
      LoadLinesFlat(lines[1..], parse);
      assert Loader(parse)(lines[0]) == LoadLine(lines[0], parse);
    }
  }

  /** The loader reads the first line, then the rest. */
  lemma LoadLinesCons(x: string, t: seq<string>, parse: string -> Option<Message>)
    ensures LoadLines([x] + t, parse) == LoadLine(x, parse) + LoadLines(t, parse)
  {
    assert ([x] + t)[1..] == t;
  }

  /** A blank or unparsable line is skipped without disturbing the lines around it. */
  lemma BadLineSkipped(a: seq<string>, bad: string, b: seq<string>, parse: string -> Option<Message>)
    requires Blank(bad) || parse(bad) == None
    ensures LoadLines(a + [bad] + b, parse) == LoadLines(a, parse) + LoadLines(b, parse)
  {
    LoadLinesAppend(a + [bad], b, parse);
    LoadLinesAppend(a, [bad], parse);
  }

  /** Under the round trip, each encoded record loads as that record. */
  lemma RoundTripLoadsLine(encode: Message -> string, parse: string -> Option<Message>)
    requires RoundTrips(encode, parse)
    ensures forall m :: LoadLine(encode(m), parse) == [m]
  {
    forall m ensures LoadLine(encode(m), parse) == [m] {
      assert !Blank(encode(m)) && parse(encode(m)) == Some(m);
    }
  }

  /** Loading the encodings of a log gives the log back. */
  lemma {:induction false} LoadEncodes(log: Log, encode: Message -> string, parse: string -> Option<Message>)
    requires forall m :: LoadLine(encode(m), parse) == [m]
    ensures LoadLines(Encodes(log, encode), parse) == log
  {
    if |log| > 0 {
      var rest := Encodes(log[1..], encode);
      assert Encodes(log, encode) == [encode(log[0])] + rest;
      LoadLinesCons(encode(log[0]), rest, parse);
      assert LoadLine(encode(log[0]), parse) == [log[0]];
      LoadEncodes(log[1..], encode, parse);
      assert log == [log[0]] + log[1..];
    }
  }

  lemma {:induction false} EncodesHaveNoNewline(log: Log, encode: Message -> string, parse: string -> Option<Message>)
    requires RoundTrips(encode, parse)
    ensures forall x :: x in Encodes(log, encode) ==> '\n' !in x
  {
    if |log| > 0 {
      EncodesHaveNoNewline(log[1..], encode, parse);
      assert Encodes(log, encode) == [encode(log[0])] + Encodes(log[1..], encode);
    }
  }

  /** Loading the file `rewriteFile` writes yields the in-memory log it was written from. */
  lemma RewriteThenLoad(log: Log, encode: Message -> string, parse: string -> Option<Message>)
    requires RoundTrips(encode, parse)
    ensures Load(Rewrite(log, encode), parse) == log
  {
    var xs := Encodes(log, encode);
    if |log| == 0 {
      assert Rewrite(log, encode) == [];
    } else {
      EncodesHaveNoNewline(log, encode, parse);
      LinesOfJoin(xs);
      var content := JoinLines(xs);
      assert content != [];
      LinesAround(content, "");
      assert content + "\n" + "" == Rewrite(log, encode);
      LoadLinesAppend(xs, [""], parse);
      RoundTripLoadsLine(encode, parse);
      LoadEncodes(log, encode, parse);
    }
  }

  /** A record line followed by the empty tail of the split loads as that record. */
  lemma LoadRecordLine(e: string, m: Message, parse: string -> Option<Message>)
    requires !Blank(e) && parse(e) == Some(m)
    ensures LoadLines([e, ""], parse) == [m]
  {
    assert [e, ""][1..] == [""];
    assert [""][1..] == [];
    assert Blank("");
  }

  /** The lines of a record terminated by a newline. */
  lemma LinesOfRecord(e: string)
    requires '\n' !in e
    ensures Lines(e + "\n") == [e, ""]
  {
    LinesOfOneLine(e);
    LinesAround(e, "");
    assert e + "\n" == e + "\n" + "";
  }

  /** Appending one record to a well-formed file (empty, or ending in a newline) adds exactly
      that record at the end of what the loader returns. */
  lemma AppendThenLoad(content: string, m: Message, encode: Message -> string, parse: string -> Option<Message>)
    requires RoundTrips(encode, parse)
    requires content == [] || content[|content| - 1] == '\n'
    ensures Load(AppendRecord(content, m, encode), parse) == Load(content, parse) + [m]
  {
    var e := encode(m);
    assert '\n' !in e && !Blank(e) && parse(e) == Some(m);
    AppendLine(content, e, m, parse);
  }

  /** Appending one well-formed record line to a well-formed file. */
  lemma AppendLine(content: string, e: string, m: Message, parse: string -> Option<Message>)
    requires '\n' !in e && !Blank(e) && parse(e) == Some(m)
    requires content == [] || content[|content| - 1] == '\n'
    ensures Load(content + e + "\n", parse) == Load(content, parse) + [m]
  {
    if content == [] {
      assert content + e + "\n" == e + "\n";
      AppendToEmpty(e, m, parse);
    } else {
      var c := content[..|content| - 1];
      assert content == c + "\n";
      assert content + e + "\n" == c + "\n" + e + "\n";
      AppendAfterLine(c, e, m, parse);
    }
  }

  lemma AppendToEmpty(e: string, m: Message, parse: string -> Option<Message>)
    requires '\n' !in e && !Blank(e) && parse(e) == Some(m)
    ensures Load(e + "\n", parse) == Load([], parse) + [m]
  {
    LinesOfRecord(e);
    LoadRecordLine(e, m, parse);
    LoadEmpty(parse);
  }

  /** An empty file holds no records. */
  lemma LoadEmpty(parse: string -> Option<Message>)
    ensures Load([], parse) == []
  {
    assert Lines([]) == [""];
    assert [""][1..] == [];
    assert Blank("");
    assert LoadLine("", parse) == [];
  }

  lemma AppendAfterLine(c: string, e: string, m: Message, parse: string -> Option<Message>)
    requires '\n' !in e && !Blank(e) && parse(e) == Some(m)
    ensures Load(c + "\n" + e + "\n", parse) == Load(c + "\n", parse) + [m]
  {
    var L := Lines(c);
    calc {
      Load(c + "\n" + e + "\n", parse);
    == { assert c + "\n" + e + "\n" == c + "\n" + (e + "\n"); }
      LoadLines(Lines(c + "\n" + (e + "\n")), parse);
    == { LinesAround(c, e + "\n"); LinesOfRecord(e); }
      LoadLines(L + [e, ""], parse);
    == { LoadLinesAppend(L, [e, ""], parse); LoadRecordLine(e, m, parse); }
      LoadLines(L, parse) + [m];
    == { LoadAfterLine(c, parse); }
      Load(c + "\n", parse) + [m];
    }
  }

  /** A trailing newline adds no record. */
  lemma LoadAfterLine(c: string, parse: string -> Option<Message>)
    ensures Load(c + "\n", parse) == LoadLines(Lines(c), parse)
  {
    assert c + "\n" == c + "\n" + "";
    LinesAround(c, "");
    LoadLinesAppend(Lines(c), [""], parse);
    assert LoadLines([""], parse) == [] by {
      assert [""][1..] == [];
      assert Blank("");
    }
  }
}

=== FILE: message_store.dfy ===
/** The message store of db.js: an append-only list of message records, in arrival order,
    with sender-scoped deletion and filtered history queries. */
module MessageStore {
  import opened Wrappers
  import opened Seqs

  /** The `type` field of a record. Records read back from disk may carry any tag. */
  datatype Kind = RoomMsg | Dm | OtherKind(tag: string)

  /** One stored record. A string field the record lacks is the empty string, which is
      falsy in JavaScript exactly as a missing field is. */
  datatype Message = Message(
    id: string,
    kind: Kind,
    from: string,
    room: string,
    to: string,
    text: string,
    ts: int,
    imgUrl: Option<string>)

  type Log = seq<Message>

  /** The default `limit` of both history queries. */
  const HISTORY_LIMIT: int := 200

  datatype Saved = Saved(log: Log, stored: Message)

  /** `saveMessage`: a record without an id receives `freshId` (the source builds it from the
      clock and a random suffix); the record is appended after every earlier one. */
  function SaveMessage(log: Log, msg: Message, freshId: string): (r: Saved)
    requires freshId != ""
    ensures r.log == log + [r.stored]
    ensures r.stored.id != ""
    ensures msg.id != "" ==> r.stored.id == msg.id
    ensures msg.id == "" ==> r.stored.id == freshId
    ensures r.stored == msg.(id := r.stored.id)
  {
    var stored := if msg.id == "" then msg.(id := freshId) else msg;
    Saved(log + [stored], stored)
  }

  /** The record `deleteMessage` looks for: this id, written by this sender. */
  predicate Matches(m: Message, id: string, from: string) {
    m.id == id && m.from == from
  }

  /** `i` is the first index of a matching record. */
  predicate FirstMatch(log: Log, id: string, from: string, i: int) {
    && 0 <= i < |log|
    && Matches(log[i], id, from)
    && forall k :: 0 <= k < i ==> !Matches(log[k], id, from)
  }

  /** `Array.prototype.findIndex` with the `deleteMessage` predicate. */
  function FindMatch(log: Log, id: string, from: string): (r: int)
    ensures r == -1 || FirstMatch(log, id, from, r)
    ensures r == -1 <==> forall m :: m in log ==> !Matches(m, id, from)
  {
    if |log| == 0 then -1
    else if Matches(log[0], id, from) then 0
    else
      var k := FindMatch(log[1..], id, from);
      if k == -1 then
        assert log == [log[0]] + log[1..];
        -1
      else
        assert log[k + 1] == log[1..][k];
        k + 1
  }

  datatype Deleted = Deleted(ok: bool, log: Log)

  /** `deleteMessage(id, fromName)`: removes the first record with that id written by that
      sender and reports whether it found one. */
  function DeleteMessage(log: Log, id: string, from: string): (r: Deleted)
    ensures !r.ok <==> forall m :: m in log ==> !Matches(m, id, from)
    ensures !r.ok ==> r.log == log
    ensures r.ok ==> |r.log| == |log| - 1
    ensures r.ok ==> exists i :: FirstMatch(log, id, from, i) && r.log == log[..i] + log[i + 1..]
  {
    var i := FindMatch(log, id, from);
    if i == -1 then Deleted(false, log)
    else Deleted(true, RemoveAt(log, i))
  }

  /** A successful deletion removes one matching record and keeps the rest, as a multiset. */
  lemma DeleteRemovesOneMatch(log: Log, id: string, from: string)
    requires DeleteMessage(log, id, from).ok
    ensures exists m :: Matches(m, id, from) && multiset(DeleteMessage(log, id, from).log) + multiset{m} == multiset(log)
  {
    var i := FindMatch(log, id, from);
    assert Matches(log[i], id, from);
    assert multiset(RemoveAt(log, i)) + multiset{log[i]} == multiset(log);
  }

  /** A record of room `room` in the sense of `getRoomHistory`. */
  predicate InRoom(room: string, m: Message) {
    m.kind == RoomMsg && m.room == room
  }

  /** A direct message between `a` and `b`, in either direction. */
  predicate Between(a: string, b: string, m: Message) {
    m.kind == Dm && ((m.from == a && m.to == b) || (m.from == b && m.to == a))
  }

  /** `getRoomHistory(room, limit)`. */
  function RoomHistory(log: Log, room: string, limit: int): (r: seq<Message>)
    ensures forall m :: m in r ==> m in log && InRoom(room, m)
    ensures var f := Filter(m => InRoom(room, m), log);
      limit > 0 ==> |r| == Min(limit, |f|) && r == f[|f| - |r|..]
    ensures limit == 0 ==> r == Filter(m => InRoom(room, m), log)
  {
    SliceFromEnd(Filter(m => InRoom(room, m), log), limit)
  }

  /** `getDMHistory(user1, user2, limit)`. */
  function DMHistory(log: Log, a: string, b: string, limit: int): (r: seq<Message>)
    ensures forall m :: m in r ==> m in log && Between(a, b, m)
    ensures var f := Filter(m => Between(a, b, m), log);
      limit > 0 ==> |r| == Min(limit, |f|) && r == f[|f| - |r|..]
    ensures limit == 0 ==> r == Filter(m => Between(a, b, m), log)
  {
    SliceFromEnd(Filter(m => Between(a, b, m), log), limit)
  }

  /** The non-empty `from` fields of the log, in log order. */
  function Froms(log: Log): (r: seq<string>)
    ensures forall u :: u in r <==> u != "" && exists m :: m in log && m.from == u
  {
    if |log| == 0 then []
    else
      var init := log[..|log| - 1];
      var last := log[|log| - 1];
      assert log == init + [last];
      Froms(init) + (if last.from != "" then [last.from] else [])
  }

  /** `getKnownUsers`: every distinct non-empty sender, once, in order of first appearance. */
  method KnownUsers(log: Log) returns (users: seq<string>)
    ensures NoDups(users)
    ensures forall u :: u in users <==> u != "" && exists m :: m in log && m.from == u
    ensures users == Dedup(Froms(log))
  {
    users := [];
    for i := 0 to |log|
      invariant users == Dedup(Froms(log[..i]))
    {
      var f := log[i].from;
      assert Froms(log[..i + 1]) == Froms(log[..i]) + (if f != "" then [f] else []) by {
        assert log[..i + 1][..i] == log[..i];
      }
      if f == "" {
        assert Froms(log[..i + 1]) == Froms(log[..i]);
      } else {
        DedupSnoc(Froms(log[..i]), f);
        if f !in users {
          users := users + [f];
        }
      }
    }
    assert log[..|log|] == log;
  }

  /** Saving a record extends the full history of its own room by exactly that record and
      leaves every other room's history as it was. */
  lemma {:induction false} SaveExtendsRoomHistory(log: Log, msg: Message, freshId: string, room: string)
    requires freshId != ""
    ensures var s := SaveMessage(log, msg, freshId);
      RoomHistory(s.log, room, 0)
        == RoomHistory(log, room, 0) + (if InRoom(room, s.stored) then [s.stored] else [])
  {
    var s := SaveMessage(log, msg, freshId);
    FilterAppend(m => InRoom(room, m), log, [s.stored]);
  }

  /** With a positive limit, the newest record of a room's history is the one just saved. */
  lemma SavedRecordIsNewest(log: Log, msg: Message, freshId: string, room: string, limit: int)
    requires freshId != "" && limit > 0
    requires InRoom(room, msg)
    ensures var s := SaveMessage(log, msg, freshId);
      var h := RoomHistory(s.log, room, limit);
      |h| > 0 && h[|h| - 1] == s.stored
  {
    var s := SaveMessage(log, msg, freshId);
    SaveExtendsRoomHistory(log, msg, freshId, room);
    var full := RoomHistory(s.log, room, 0);
    assert InRoom(room, s.stored);
    assert |full| > 0 && full[|full| - 1] == s.stored;
    NewestKept(s.log, room, limit);
  }

  /** A positive limit keeps a room's newest record. */
  lemma NewestKept(log: Log, room: string, limit: int)
    requires limit > 0 && |RoomHistory(log, room, 0)| > 0
    ensures var full := RoomHistory(log, room, 0);
      var h := RoomHistory(log, room, limit);
      |h| > 0 && h[|h| - 1] == full[|full| - 1]
  {
    var full := RoomHistory(log, room, 0);
    var h := RoomHistory(log, room, limit);
    assert h == full[|full| - |h|..];
  }

  /** The DM history of a pair does not depend on which of the two asks. */
  lemma DMHistorySymmetric(log: Log, a: string, b: string, limit: int)
    ensures DMHistory(log, a, b, limit) == DMHistory(log, b, a, limit)
  {
    FilterExt(m => Between(a, b, m), m => Between(b, a, m), log);
  }

  /** At most one record carries `id`. */
  predicate IdAtMostOnce(log: Log, id: string) {
    forall i, j :: 0 <= i < j < |log| && log[i].id == id ==> log[j].id != id
  }

  /** Once a record with a unique id is deleted, no history query returns a record with that id. */
  lemma DeletedRecordLeavesHistories(log: Log, id: string, from: string, room: string, a: string, b: string, limit: int)
    requires IdAtMostOnce(log, id)
    requires DeleteMessage(log, id, from).ok
    ensures forall m :: m in DeleteMessage(log, id, from).log ==> m.id != id
    ensures forall m :: m in RoomHistory(DeleteMessage(log, id, from).log, room, limit) ==> m.id != id
    ensures forall m :: m in DMHistory(DeleteMessage(log, id, from).log, a, b, limit) ==> m.id != id
  {
    var i := FindMatch(log, id, from);
    var rest := DeleteMessage(log, id, from).log;
    assert rest == log[..i] + log[i + 1..];
    forall m | m in rest ensures m.id != id {
      var k :| 0 <= k < |rest| && rest[k] == m;
      if k < i {
        assert rest[k] == log[k];
      } else {
        assert rest[k] == log[k + 1];
      }
    }
  }
}

=== FILE: registry.dfy ===
/** The connection registry of server.js: `clients` maps a user name to the set of its live
    connections, and every connection remembers the name it last joined under (`userName`). */
module Registry {
  import opened Seqs
  import opened Text

  /** A WebSocket connection, by identity. */
  type ConnId = nat

  /** `clients` together with each connection's `userName`; a connection that never joined
      has no entry in `names`. */
  datatype Registry = Registry(clients: map<string, set<ConnId>>, names: map<ConnId, string>)

  /** The longest name `join` accepts. */
  const MAX_NAME: nat := 32

  function Empty(): Registry {
    Registry(map[], map[])
  }

  /** `String(data.name || '').trim().slice(0, 32)`. */
  function JoinName(raw: string): (r: string)
    ensures |r| <= MAX_NAME
    ensures |r| == Min(|Trim(raw)|, MAX_NAME) && StartsWith(Trim(raw), r)
    ensures |Trim(raw)| <= MAX_NAME ==> r == Trim(raw)
  {
    Take(Trim(raw), MAX_NAME)
  }

  /** `clients.has(name) && clients.get(name).size > 0`: the name is held by a connection. */
  predicate Taken(reg: Registry, name: string) {
    name in reg.clients && reg.clients[name] != {}
  }

  /** The connections registered under `name`, empty when the name has no entry. */
  function ConnsOf(reg: Registry, name: string): set<ConnId> {
    if name in reg.clients then reg.clients[name] else {}
  }

  /** The invariant the registry keeps: no name maps to an empty set, and no name holds more
      than one connection (admission refuses a second one). */
  predicate Valid(reg: Registry) {
    forall n :: n in reg.clients ==> |reg.clients[n]| == 1
  }

  datatype JoinOutcome = Ignored | Rejected | Joined(name: string)

  datatype JoinResult = JoinResult(reg: Registry, outcome: JoinOutcome)

  /** The `join` handler on the registry: an empty name is ignored, a name in use is rejected
      with `join_error`, otherwise the connection is added to the name's set and the
      connection's `userName` becomes that name. */
  function Join(reg: Registry, conn: ConnId, raw: string): (r: JoinResult)
    ensures r.outcome.Ignored? <==> JoinName(raw) == []
    ensures r.outcome.Rejected? <==> JoinName(raw) != [] && Taken(reg, JoinName(raw))
    ensures !r.outcome.Joined? ==> r.reg == reg
    ensures r.outcome.Joined? ==>
      && r.outcome.name == JoinName(raw)
      && r.reg.clients == reg.clients[JoinName(raw) := {conn}]
      && r.reg.names == reg.names[conn := JoinName(raw)]
      && r.reg.clients.Keys == reg.clients.Keys + {JoinName(raw)}
  {
    var name := JoinName(raw);
    if name == [] then JoinResult(reg, Ignored)
    else if Taken(reg, name) then JoinResult(reg, Rejected)
    else
      var sockets := if name in reg.clients then reg.clients[name] else {};
      assert sockets + {conn} == {conn};
      JoinResult(Registry(reg.clients[name := sockets + {conn}], reg.names[conn := name]), Joined(name))
  }

  /** The `close` handler on the registry: the connection leaves the set of the name it last
      joined under, and a set left empty is removed. Any other set it is still in keeps it. */
  function Close(reg: Registry, conn: ConnId): (r: Registry)
    ensures conn !in reg.names ==> r.clients == reg.clients
    ensures conn in reg.names ==>
      var name := reg.names[conn];
      && (forall n :: n != name ==> ConnsOf(r, n) == ConnsOf(reg, n))
      && ConnsOf(r, name) == ConnsOf(reg, name) - {conn}
      && (name in r.clients ==> r.clients[name] != {})
    ensures conn !in r.names
  {
    if conn !in reg.names then Registry(reg.clients, reg.names - {conn})
    else
      var name := reg.names[conn];
      var names := reg.names - {conn};
      if name !in reg.clients then Registry(reg.clients, names)
      else
        var sockets := reg.clients[name] - {conn};
        if |sockets| == 0 then Registry(reg.clients - {name}, names)
        else Registry(reg.clients[name := sockets], names)
  }

  /** Joining keeps the registry valid. */
  lemma JoinKeepsValid(reg: Registry, conn: ConnId, raw: string)
    requires Valid(reg)
    ensures Valid(Join(reg, conn, raw).reg)
  {
  }

  /** Closing keeps the registry valid. */
  lemma CloseKeepsValid(reg: Registry, conn: ConnId)
    requires Valid(reg)
    ensures Valid(Close(reg, conn))
  {
    if conn in reg.names {
      var name := reg.names[conn];
      if name in reg.clients {
        var s := reg.clients[name];
        if conn in s {
          assert |s - {conn}| == |s| - 1;
        } else {
          assert s - {conn} == s;
        }
      }
    }
  }

  /** A name holds at most one live connection at a time. */
  lemma AtMostOneConnection(reg: Registry, name: string)
    requires Valid(reg)
    ensures |ConnsOf(reg, name)| <= 1
  {
  }

  /** A connection that joins as `a` and then as `b` and then closes stays registered under
      `a`: `close` only looks at the latest name. From then on `a` can never join again. */
  lemma StaleAfterRejoin(conn: ConnId, a: string, b: string, other: ConnId)
    requires JoinName(a) != [] && JoinName(b) != [] && JoinName(a) != JoinName(b)
    ensures var r1 := Join(Empty(), conn, a).reg;
            var r2 := Join(r1, conn, b).reg;
            var r3 := Close(r2, conn);
            && ConnsOf(r3, JoinName(a)) == {conn}
            && JoinName(b) !in r3.clients
            && conn !in r3.names
            && Join(r3, other, a).outcome.Rejected?
  {
    var A, B := JoinName(a), JoinName(b);
    JoinIntoEmpty(conn, a);
    JoinUnderSecondName(conn, A, b);
    CloseLastConn(A, B, conn);
  }

  /** The first join into an empty registry. */
  lemma JoinIntoEmpty(conn: ConnId, raw: string)
    requires JoinName(raw) != []
    ensures Join(Empty(), conn, raw).reg == Registry(map[JoinName(raw) := {conn}], map[conn := JoinName(raw)])
  {
  }

  /** A connection holding `a` joins again under another name. */
  lemma JoinUnderSecondName(conn: ConnId, a: string, raw: string)
    requires JoinName(raw) != [] && JoinName(raw) != a
    ensures var b := JoinName(raw);
      Join(Registry(map[a := {conn}], map[conn := a]), conn, raw).reg
        == Registry(map[a := {conn}, b := {conn}], map[conn := b])
  {
    assert !Taken(Registry(map[a := {conn}], map[conn := a]), JoinName(raw));
  }

  /** Closing the one connection held under `b`, when the same connection also sits in `a`'s
      set, removes `b` and leaves `a` registered. */
  lemma CloseLastConn(a: string, b: string, conn: ConnId)
    requires a != b
    ensures Close(Registry(map[a := {conn}, b := {conn}], map[conn := b]), conn)
         == Registry(map[a := {conn}], map[])
  {
    var reg := Registry(map[a := {conn}, b := {conn}], map[conn := b]);
    assert reg.clients[b] - {conn} == {};
    assert reg.clients - {b} == map[a := {conn}];
    assert reg.names - {conn} == map[];
  }
}

=== FILE: room_directory.dfy ===
/** The room directory of server.js: one ordered list of rooms shared by every user, with
    per-user visibility, creation, creator-only deletion and per-user reordering. */
module RoomDirectory {
  import opened Wrappers
  import opened Seqs
  import opened Text
  import opened Slug
  import opened Sorting

  /** `{ name, creator, members }`. `creator == None` marks a default room, `members == None`
      a public room. A member list may repeat a name. */
  datatype Room = Room(name: string, creator: Option<string>, members: Option<seq<string>>)

  type Directory = seq<Room>

  const DEFAULT_ROOMS: seq<string> := ["general", "finances", "travel", "kids", "appointments", "events"]

  /** The directory before any `rooms.json` exists: the default rooms, public and undeletable. */
  function InitialRooms(): (r: Directory)
    ensures Names(r) == DEFAULT_ROOMS
    ensures forall x :: x in r ==> x.creator.None? && x.members.None?
  {
    Map(n => Room(n, None, None), DEFAULT_ROOMS)
  }

  function NameOf(r: Room): string {
    r.name
  }

  function Names(rooms: Directory): (r: seq<string>)
    ensures |r| == |rooms|
    ensures forall i :: 0 <= i < |rooms| ==> r[i] == rooms[i].name
  {
    Map(NameOf, rooms)
  }

  /** The room-name invariant the directory keeps: no name twice. */
  predicate DistinctNames(rooms: Directory) {
    NoDups(Names(rooms))
  }

  /** `!r.members || r.members.includes(name)`: the visibility and write-permission test. */
  predicate CanSee(user: string, room: Room) {
    room.members.None? || user in room.members.value
  }

  /** `getRoomsForUser(name)`. */
  function RoomsForUser(rooms: Directory, user: string): (r: Directory)
    ensures forall x :: x in r <==> x in rooms && CanSee(user, x)
    ensures Subseq(r, rooms) && KeepsCounts(Visible(user), r, rooms)
  {
    FilterSubseq(Visible(user), rooms);
    FilterCounts(Visible(user), rooms);
    Filter(Visible(user), rooms)
  }

  function Visible(user: string): Room -> bool {
    (x: Room) => CanSee(user, x)
  }

  /** `i` is the index of the first room named `name`. */
  predicate FirstNamed(rooms: Directory, name: string, i: int) {
    && 0 <= i < |rooms|
    && rooms[i].name == name
    && forall k :: 0 <= k < i ==> rooms[k].name != name
  }

  /** `rooms.findIndex(r => r.name === name)`. */
  function FindIndex(rooms: Directory, name: string): (r: int)
    ensures r == -1 || FirstNamed(rooms, name, r)
    ensures r == -1 <==> forall i :: 0 <= i < |rooms| ==> rooms[i].name != name
  {
    if |rooms| == 0 then -1
    else if rooms[0].name == name then 0
    else
      var k := FindIndex(rooms[1..], name);
      assert forall i :: 1 <= i < |rooms| ==> rooms[i] == rooms[1..][i - 1];
      if k == -1 then -1 else k + 1
  }

  /** `rooms.find(r => r.name === name)`: the first room with that name. */
  function FindRoom(rooms: Directory, name: string): (r: Option<Room>)
    ensures r.None? <==> name !in Names(rooms)
    ensures r.Some? ==> exists i :: FirstNamed(rooms, name, i) && rooms[i] == r.value
    ensures r.Some? ==> r.value.name == name && r.value in rooms
  {
    var i := FindIndex(rooms, name);
    if i == -1 then
      assert name !in Names(rooms) by {
        forall j | 0 <= j < |rooms| ensures Names(rooms)[j] != name { }
      }
      None
    else
      assert Names(rooms)[i] == name;
      Some(rooms[i])
  }

  /** With distinct names, a room of the directory is what a lookup of its name finds. */
  lemma FindRoomUnique(rooms: Directory, x: Room)
    requires DistinctNames(rooms) && x in rooms
    ensures FindRoom(rooms, x.name) == Some(x)
  {
    var k :| 0 <= k < |rooms| && rooms[k] == x;
    assert Names(rooms)[k] == x.name;
  }

  /** Only the first index with a name is its first index. */
  lemma FirstNamedUnique(rooms: Directory, name: string, i: int)
    requires FirstNamed(rooms, name, i)
    ensures FindRoom(rooms, name) == Some(rooms[i])
  {
    assert Names(rooms)[i] == name;
  }

  /** The gate of `history` and `room_msg`: the first room with that name exists and `user`
      may see it. */
  predicate Admits(rooms: Directory, user: string, name: string) {
    exists i :: 0 <= i < |rooms| && FirstNamed(rooms, name, i) && CanSee(user, rooms[i])
  }

  /** `Admits` is the test the handlers perform on `rooms.find`. */
  lemma AdmitsFound(rooms: Directory, user: string, name: string)
    ensures Admits(rooms, user, name) <==>
      FindRoom(rooms, name).Some? && CanSee(user, FindRoom(rooms, name).value)
  {
    if Admits(rooms, user, name) {
      var i :| 0 <= i < |rooms| && FirstNamed(rooms, name, i) && CanSee(user, rooms[i]);
      FirstNamedUnique(rooms, name, i);
    }
    if FindRoom(rooms, name).Some? {
      var i := FindIndex(rooms, name);
      assert FirstNamed(rooms, name, i);
    }
  }

  // ---------------------------------------------------------------- create_room

  /** `String(m).trim().slice(0, 32)`. */
  function MemberName(m: string): string {
    Take(Trim(m), MAX_ROOM_NAME)
  }

  /** The invitees `create_room` keeps: normalised names of known users other than the creator,
      in request order, repeats included. */
  function Invitees(raw: seq<string>, known: set<string>, creator: string): (r: seq<string>)
    ensures forall x :: x in r <==> x in known && x != creator && exists m :: m in raw && MemberName(m) == x
    ensures Subseq(r, Map(MemberName, raw)) && KeepsCounts(Accepted(known, creator), r, Map(MemberName, raw))
  {
    var names := Map(MemberName, raw);
    MapMembers(MemberName, raw);
    FilterSubseq(Accepted(known, creator), names);
    FilterCounts(Accepted(known, creator), names);
    Filter(Accepted(known, creator), names)
  }

  /** The filter of the invitee list: a known user other than the creator. */
  function Accepted(known: set<string>, creator: string): string -> bool {
    x => x in known && x != creator
  }

  /** The invitee list is built entry by entry: one more requested name adds its normalised
      form at the end exactly when it is accepted, so request order and repeats are kept. */
  lemma InviteesSnoc(raw: seq<string>, m: string, known: set<string>, creator: string)
    ensures Invitees([], known, creator) == []
    ensures var x := MemberName(m);
      Invitees(raw + [m], known, creator)
        == Invitees(raw, known, creator) + (if x in known && x != creator then [x] else [])
  {
    var x := MemberName(m);
    MapAppend(MemberName, raw, [m]);
    FilterAppend(Accepted(known, creator), Map(MemberName, raw), [x]);
    assert Map(MemberName, [m]) == [x];
    assert Filter(Accepted(known, creator), [x]) == if x in known && x != creator then [x] else [] by {
      FilterHead(Accepted(known, creator), [x]);
      assert [x][1..] == [];
    }
  }

  /** The `create_room` handler: `None` when the request is ignored (empty slug or a name
      already taken), otherwise the directory with the new room appended. `rawMembers` is
      `None` when the request's `members` is not an array. */
  function CreateRoom(rooms: Directory, user: string, rawName: string,
                      rawMembers: Option<seq<string>>, known: set<string>): (r: Option<Directory>)
    ensures r.Some? <==> Slugify(rawName) != [] && Slugify(rawName) !in Names(rooms)
    ensures r.Some? ==> |r.value| == |rooms| + 1 && r.value[..|rooms|] == rooms
    ensures r.Some? ==> var nr := r.value[|rooms|];
      && nr.name == Slugify(rawName)
      && nr.creator == Some(user)
      && (nr.members.None? <==> rawMembers.None?)
      && (rawMembers.Some? ==>
            && |nr.members.value| >= 1
            && nr.members.value[0] == user
            && nr.members.value == [user] + Invitees(rawMembers.value, known, user))
  {
    var name := Slugify(rawName);
    if name == [] || FindRoom(rooms, name).Some? then None
    else
      var members := match rawMembers
        case None => None
        case Some(raw) => Some([user] + Invitees(raw, known, user));
      Some(rooms + [Room(name, Some(user), members)])
  }

  /** Creation keeps room names distinct. */
  lemma CreateKeepsNamesDistinct(rooms: Directory, user: string, rawName: string,
                                 rawMembers: Option<seq<string>>, known: set<string>)
    requires DistinctNames(rooms)
    requires CreateRoom(rooms, user, rawName, rawMembers, known).Some?
    ensures DistinctNames(CreateRoom(rooms, user, rawName, rawMembers, known).value)
  {
    var r := CreateRoom(rooms, user, rawName, rawMembers, known).value;
    assert r == rooms + [r[|rooms|]];
    MapAppend(NameOf, rooms, [r[|rooms|]]);
  }

  // ---------------------------------------------------------------- delete_room

  /** The first room named `name` exists, is not a default room, and was created by `user`. */
  predicate MayDelete(rooms: Directory, user: string, name: string) {
    exists i :: 0 <= i < |rooms| && FirstNamed(rooms, name, i) && rooms[i].creator == Some(user)
  }

  /** The `delete_room` handler: `None` when ignored, otherwise the directory without every
      room of that name. */
  function DeleteRoom(rooms: Directory, user: string, rawName: string): (r: Option<Directory>)
    ensures r.Some? <==> MayDelete(rooms, user, Trim(rawName))
    ensures r.Some? ==> forall x :: x in r.value <==> x in rooms && x.name != Trim(rawName)
    ensures r.Some? ==> |r.value| < |rooms|
    ensures r.Some? ==> Subseq(r.value, rooms) && KeepsCounts(NotNamed(Trim(rawName)), r.value, rooms)
  {
    var name := Trim(rawName);
    var i := FindIndex(rooms, name);
    if i == -1 then None
    else
      MayDeleteAt(rooms, user, name, i);
      if rooms[i].creator.None? || rooms[i].creator != Some(user) then None
      else
        FilterDrops(NotNamed(name), rooms, i);
        FilterSubseq(NotNamed(name), rooms);
        FilterCounts(NotNamed(name), rooms);
        Some(Filter(NotNamed(name), rooms))
  }

  /** Only the first room with a name decides whether `user` may delete that name. */
  lemma MayDeleteAt(rooms: Directory, user: string, name: string, i: int)
    requires FirstNamed(rooms, name, i)
    ensures MayDelete(rooms, user, name) <==> rooms[i].creator == Some(user)
  {
    if j :| 0 <= j < |rooms| && FirstNamed(rooms, name, j) && rooms[j].creator == Some(user) {
      assert !(j < i) && !(i < j);
    }
  }

  /** Default rooms survive every deletion while names are distinct. */
  lemma DefaultRoomsSurviveDelete(rooms: Directory, user: string, rawName: string, x: Room)
    requires DistinctNames(rooms)
    requires x in rooms && x.creator.None?
    requires DeleteRoom(rooms, user, rawName).Some?
    ensures x in DeleteRoom(rooms, user, rawName).value
  {
    var name := Trim(rawName);
    var i :| FirstNamed(rooms, name, i) && rooms[i].creator == Some(user);
    FindRoomUnique(rooms, x);
    var j := FindIndex(rooms, x.name);
    assert rooms[j] == x;
    assert x.name != name;
  }

  /** Deletion keeps room names distinct. */
  lemma DeleteKeepsNamesDistinct(rooms: Directory, user: string, rawName: string)
    requires DistinctNames(rooms)
    requires DeleteRoom(rooms, user, rawName).Some?
    ensures DistinctNames(DeleteRoom(rooms, user, rawName).value)
  {
    var name := Trim(rawName);
    FilterNames(NotNamed(name), NameIsNot(name), rooms);
    FilterNoDups(NameIsNot(name), Names(rooms));
  }

  function NotNamed(name: string): Room -> bool {
    (x: Room) => x.name != name
  }

  function NameIsNot(name: string): string -> bool {
    (n: string) => n != name
  }

  /** Names commute with a filter that looks only at the name. */
  lemma {:induction false} FilterNames(p: Room -> bool, q: string -> bool, rooms: Directory)
    requires forall x: Room :: p(x) == q(x.name)
    ensures Names(Filter(p, rooms)) == Filter(q, Names(rooms))
  {
    if |rooms| > 0 {
      FilterNames(p, q, rooms[1..]);
      assert Names(rooms) == [rooms[0].name] + Names(rooms[1..]);
      MapAppend(NameOf, if p(rooms[0]) then [rooms[0]] else [], Filter(p, rooms[1..]));
    }
  }

  // ---------------------------------------------------------------- reorder_rooms

  /** `incomingNames.map(n => rooms.find(r => r.name === n))` when every name has a room. */
  function Lookup(rooms: Directory, names: seq<string>): (r: Directory)
    requires forall n :: n in names ==> n in Names(rooms)
    ensures |r| == |names|
    ensures forall i :: 0 <= i < |r| ==> r[i].name == names[i] && r[i] in rooms
  {
    Map(Resolve(rooms), names)
  }

  function Resolve(rooms: Directory): string -> Room {
    (n: string) => FindRoom(rooms, n).GetOr(Room([], None, None))
  }

  /** The `reorder_rooms` handler. `incoming` is `None` when the request's `rooms` is not an
      array. The request is accepted when the sorted incoming names equal the sorted names of
      the rooms the user sees; the new directory is the user's order followed by the rooms the
      user does not see, in their previous order. */
  function ReorderRooms(rooms: Directory, user: string, incoming: Option<seq<string>>): (r: Option<Directory>)
    ensures r.Some? <==> incoming.Some? && multiset(incoming.value) == multiset(Names(RoomsForUser(rooms, user)))
    ensures r.Some? ==> |r.value| == |incoming.value| + |Hidden(rooms, user)|
    ensures r.Some? ==> forall i :: 0 <= i < |incoming.value| ==> r.value[i].name == incoming.value[i]
    ensures r.Some? ==> r.value[|incoming.value|..] == Hidden(rooms, user)
  {
    if incoming.None? || !SameNames(Names(RoomsForUser(rooms, user)), incoming.value) then None
    else
      AcceptedNamesKnown(rooms, user, incoming.value);
      Some(Lookup(rooms, incoming.value) + Hidden(rooms, user))
  }

  /** The acceptance test of `reorder_rooms`: the two name lists, each sorted, are equal. */
  predicate SameNames(visible: seq<string>, names: seq<string>)
    ensures SameNames(visible, names) <==> multiset(names) == multiset(visible)
  {
    SortEqIffSameMultiset(visible, names);
    Sort(visible) == Sort(names)
  }

  /** Every name of an accepted order names a room of the directory. */
  lemma AcceptedNamesKnown(rooms: Directory, user: string, names: seq<string>)
    requires multiset(names) == multiset(Names(RoomsForUser(rooms, user)))
    ensures forall n :: n in names ==> n in Names(rooms)
  {
    VisibleNamesKnown(rooms, user);
    forall n | n in names ensures n in Names(rooms) {
      assert n in multiset(Names(RoomsForUser(rooms, user)));
    }
  }

  /** Every name a user sees is a name of the directory. */
  lemma VisibleNamesKnown(rooms: Directory, user: string)
    ensures forall n :: n in Names(RoomsForUser(rooms, user)) ==> n in Names(rooms)
  {
    var visible := RoomsForUser(rooms, user);
    forall n | n in Names(visible) ensures n in Names(rooms) {
      var i :| 0 <= i < |visible| && Names(visible)[i] == n;
      assert visible[i] in rooms;
      var k :| 0 <= k < |rooms| && rooms[k] == visible[i];
      assert Names(rooms)[k] == n;
    }
  }

  /** The rooms whose names are not among the names `user` sees, in directory order. */
  function Hidden(rooms: Directory, user: string): Directory {
    Filter(NameNotIn(Names(RoomsForUser(rooms, user))), rooms)
  }

  function NameNotIn(names: seq<string>): Room -> bool {
    (x: Room) => x.name !in names
  }

  /** Under distinct names, the rooms a user does not see are exactly the ones `Hidden` keeps. */
  lemma HiddenIsInvisible(rooms: Directory, user: string)
    requires DistinctNames(rooms)
    ensures Hidden(rooms, user) == Filter(Not(Visible(user)), rooms)
  {
    var visible := RoomsForUser(rooms, user);
    forall x | x in rooms ensures NameNotIn(Names(visible))(x) == Not(Visible(user))(x) {
      if Visible(user)(x) {
        var i :| 0 <= i < |visible| && visible[i] == x;
        assert Names(visible)[i] == x.name;
      } else if x.name in Names(visible) {
        var i :| 0 <= i < |visible| && Names(visible)[i] == x.name;
        FindRoomUnique(rooms, x);
        FindRoomUnique(rooms, visible[i]);
        assert false;
      }
    }
    FilterExt(NameNotIn(Names(visible)), Not(Visible(user)), rooms);
  }

  /** Resolving the names of the visible rooms gives back the visible rooms. */
  lemma LookupVisible(rooms: Directory, user: string)
    requires DistinctNames(rooms)
    ensures Map(Resolve(rooms), Names(RoomsForUser(rooms, user))) == RoomsForUser(rooms, user)
  {
    var visible := RoomsForUser(rooms, user);
    forall i | 0 <= i < |visible| ensures Resolve(rooms)(Names(visible)[i]) == visible[i] {
      FindRoomUnique(rooms, visible[i]);
    }
  }

  /** An accepted reorder is a permutation of the directory. */
  lemma ReorderPermutation(rooms: Directory, user: string, incoming: Option<seq<string>>)
    requires DistinctNames(rooms)
    requires ReorderRooms(rooms, user, incoming).Some?
    ensures multiset(ReorderRooms(rooms, user, incoming).value) == multiset(rooms)
  {
    var visible := RoomsForUser(rooms, user);
    var names := incoming.value;
    var front := Lookup(rooms, names);
    var hidden := Hidden(rooms, user);
    assert ReorderRooms(rooms, user, incoming).value == front + hidden;
    LookupVisible(rooms, user);
    MapMultiset(Resolve(rooms), names, Names(visible));
    assert multiset(front) == multiset(visible);
    HiddenIsInvisible(rooms, user);
    FilterPartition(Visible(user), rooms);
  }

  /** An accepted reorder keeps room names distinct. */
  lemma ReorderKeepsNamesDistinct(rooms: Directory, user: string, incoming: Option<seq<string>>)
    requires DistinctNames(rooms)
    requires ReorderRooms(rooms, user, incoming).Some?
    ensures DistinctNames(ReorderRooms(rooms, user, incoming).value)
  {
    var r := ReorderRooms(rooms, user, incoming).value;
    ReorderPermutation(rooms, user, incoming);
    MapMultiset(NameOf, rooms, r);
    NoDupsPermutation(Names(rooms), Names(r));
  }

  /** After an accepted reorder the user sees their rooms in exactly the order they sent. */
  lemma ReorderShowsRequestedOrder(rooms: Directory, user: string, incoming: Option<seq<string>>)
    requires DistinctNames(rooms)
    requires ReorderRooms(rooms, user, incoming).Some?
    ensures Names(RoomsForUser(ReorderRooms(rooms, user, incoming).value, user)) == incoming.value
  {
    var names := incoming.value;
    var front := Lookup(rooms, names);
    var hidden := Hidden(rooms, user);
    assert ReorderRooms(rooms, user, incoming).value == front + hidden;
    FilterAppend(Visible(user), front, hidden);
    AcceptedNamesKnown(rooms, user, names);
    FrontVisible(rooms, user, names);
    HiddenNotVisible(rooms, user);
    assert Names(front) == names;
  }

  /** The rooms an accepted order resolves to are all visible to the user. */
  lemma FrontVisible(rooms: Directory, user: string, names: seq<string>)
    requires DistinctNames(rooms)
    requires multiset(names) == multiset(Names(RoomsForUser(rooms, user)))
    requires forall n :: n in names ==> n in Names(rooms)
    ensures Filter(Visible(user), Lookup(rooms, names)) == Lookup(rooms, names)
  {
    var visible := RoomsForUser(rooms, user);
    var front := Lookup(rooms, names);
    LookupVisible(rooms, user);
    MapMultiset(Resolve(rooms), names, Names(visible));
    forall x | x in front ensures Visible(user)(x) {
      assert x in multiset(visible);
    }
    FilterAll(Visible(user), front);
  }

  /** No room `Hidden` keeps is visible to the user. */
  lemma HiddenNotVisible(rooms: Directory, user: string)
    requires DistinctNames(rooms)
    ensures Filter(Visible(user), Hidden(rooms, user)) == []
  {
    HiddenIsInvisible(rooms, user);
    FilterOfComplement(Visible(user), rooms);
  }
}

=== FILE: seqs.dfy ===
/** Sequence operations that mirror the JavaScript array methods the chat engine uses. */
module Seqs {

  /** `Array.prototype.filter`: the elements of `s` satisfying `p`, in their original order. */
  function Filter<T(!new)>(p: T -> bool, s: seq<T>): (r: seq<T>)
    ensures |r| <= |s|
    ensures forall x {:trigger x in r} {:trigger x in s} :: x in r <==> x in s && p(x)
  {
    if |s| == 0 then []
    else (if p(s[0]) then [s[0]] else []) + Filter(p, s[1..])
  }

  /** Filtering distributes over concatenation. */
  lemma {:induction false} FilterAppend<T(!new)>(p: T -> bool, a: seq<T>, b: seq<T>)
    ensures Filter(p, a + b) == Filter(p, a) + Filter(p, b)
  {
    if |a| == 0 {
      assert a + b == b;
    } else {
      assert (a + b)[0] == a[0] && (a + b)[1..] == a[1..] + b;
      FilterHead(p, a + b);
      FilterHead(p, a);
      FilterAppend(p, a[1..], b);
      if p(a[0]) {
        assert [a[0]] + (Filter(p, a[1..]) + Filter(p, b)) == ([a[0]] + Filter(p, a[1..])) + Filter(p, b);
      }
    }
  }

  /** Two predicates that agree on every element of `s` filter it identically. */
  lemma {:induction false} FilterExt<T(!new)>(p: T -> bool, q: T -> bool, s: seq<T>)
    requires forall x :: x in s ==> p(x) == q(x)
    ensures Filter(p, s) == Filter(q, s)
  {
    if |s| > 0 {
      FilterExt(p, q, s[1..]);
    }
  }

  /** A filter and its complement split the multiset of `s` between them. */
  lemma {:induction false} FilterPartition<T(!new)>(p: T -> bool, s: seq<T>)
    ensures multiset(Filter(p, s)) + multiset(Filter(Not(p), s)) == multiset(s)
  {
    if |s| > 0 {
      var h, t := s[0], s[1..];
      FilterPartition(p, t);
      FilterHead(p, s);
      FilterHead(Not(p), s);
      assert multiset(s) == multiset{h} + multiset(t) by {
        assert s == [h] + t;
      }
      if p(h) {
        assert Filter(p, s) == [h] + Filter(p, t);
        assert Filter(Not(p), s) == Filter(Not(p), t);
        assert multiset(Filter(p, s)) == multiset{h} + multiset(Filter(p, t));
      } else {
        assert Filter(p, s) == Filter(p, t);
        assert Filter(Not(p), s) == [h] + Filter(Not(p), t);
        assert multiset(Filter(Not(p), s)) == multiset{h} + multiset(Filter(Not(p), t));
      }
    }
  }

  /** `a` is `b` with some elements left out: every element of `a` sits in `b`, in the same
      order. */
  predicate Subseq<T(==)>(a: seq<T>, b: seq<T>)
    decreases |b|
  {
    if |a| == 0 then true
    else if |b| == 0 then false
    else (a[0] == b[0] && Subseq(a[1..], b[1..])) || Subseq(a, b[1..])
  }

  /** What a filter keeps, counted: every copy of a passing element, no copy of any other. */
  ghost predicate KeepsCounts<T(!new)>(p: T -> bool, r: seq<T>, s: seq<T>) {
    forall x :: multiset(r)[x] == if p(x) then multiset(s)[x] else 0
  }

  /** A filter keeps the order of the elements it keeps. */
  lemma {:induction false} FilterSubseq<T(!new)>(p: T -> bool, s: seq<T>)
    ensures Subseq(Filter(p, s), s)
  {
    if |s| > 0 {
      FilterSubseq(p, s[1..]);
      FilterHead(p, s);
      var r := Filter(p, s);
      if p(s[0]) {
        assert r[0] == s[0] && r[1..] == Filter(p, s[1..]);
      }
    }
  }

  /** A filter keeps every copy of a passing element and drops every copy of the others. */
  lemma {:induction false} FilterCounts<T(!new)>(p: T -> bool, s: seq<T>)
    ensures KeepsCounts(p, Filter(p, s), s)
  {
    if |s| > 0 {
      FilterCounts(p, s[1..]);
      FilterHead(p, s);
      assert s == [s[0]] + s[1..];
      assert multiset(s) == multiset{s[0]} + multiset(s[1..]);
      if p(s[0]) {
        assert multiset(Filter(p, s)) == multiset{s[0]} + multiset(Filter(p, s[1..]));
      }
    }
  }

  /** The two facts above determine the filter: any subsequence with those counts is it. */
  lemma {:induction false} FilterUnique<T(!new)>(p: T -> bool, r: seq<T>, s: seq<T>)
    requires Subseq(r, s) && KeepsCounts(p, r, s)
    ensures r == Filter(p, s)
    decreases |s|
  {
    if |s| > 0 {
      var h, t := s[0], s[1..];
      FilterHead(p, s);
      assert s == [h] + t;
      assert multiset(s) == multiset{h} + multiset(t);
      if p(h) {
        assert multiset(r)[h] == multiset(s)[h] > 0;
        assert r[0] == h && Subseq(r[1..], t) by {
          if !(r[0] == h && Subseq(r[1..], t)) {
            SubseqCount(r, t, h);
            assert false;
          }
        }
        assert r == [h] + r[1..];
        forall x ensures multiset(r[1..])[x] == if p(x) then multiset(t)[x] else 0 {
          assert multiset(r) == multiset{h} + multiset(r[1..]);
        }
        FilterUnique(p, r[1..], t);
      } else {
        assert multiset(r)[h] == 0;
        assert Subseq(r, t) by {
          if |r| > 0 {
            assert r[0] in multiset(r);
          }
        }
        assert KeepsCounts(p, r, t);
        FilterUnique(p, r, t);
      }
    }
  }

  /** A subsequence holds no more copies of anything than the sequence. */
  lemma {:induction false} SubseqCount<T>(a: seq<T>, b: seq<T>, x: T)
    requires Subseq(a, b)
    ensures multiset(a)[x] <= multiset(b)[x]
    decreases |b|
  {
    if |a| > 0 {
      assert b == [b[0]] + b[1..];
      if a[0] == b[0] && Subseq(a[1..], b[1..]) {
        SubseqCount(a[1..], b[1..], x);
        assert a == [a[0]] + a[1..];
      } else {
        SubseqCount(a, b[1..], x);
      }
    }
  }

  /** One step of the filter: the first element is kept exactly when it passes. */
  lemma FilterHead<T(!new)>(p: T -> bool, s: seq<T>)
    requires |s| > 0
    ensures p(s[0]) ==> Filter(p, s) == [s[0]] + Filter(p, s[1..])
    ensures !p(s[0]) ==> Filter(p, s) == Filter(p, s[1..])
  {
    if !p(s[0]) {
      assert [] + Filter(p, s[1..]) == Filter(p, s[1..]);
    }
  }

  /** The complement of a predicate. */
  function Not<T>(p: T -> bool): T -> bool {
    x => !p(x)
  }

  /** Nothing a filter drops passes it. */
  lemma {:induction false} FilterOfComplement<T(!new)>(p: T -> bool, s: seq<T>)
    ensures Filter(p, Filter(Not(p), s)) == []
  {
    if |s| > 0 {
      FilterOfComplement(p, s[1..]);
      if !p(s[0]) {
        assert Not(p)(s[0]);
        assert Filter(Not(p), s) == [s[0]] + Filter(Not(p), s[1..]);
        FilterAppend(p, [s[0]], Filter(Not(p), s[1..]));
        assert Filter(p, [s[0]]) == [];
      } else {
        assert !Not(p)(s[0]);
        assert Filter(Not(p), s) == [] + Filter(Not(p), s[1..]);
        assert [] + Filter(Not(p), s[1..]) == Filter(Not(p), s[1..]);
      }
    }
  }

  /** A filter keeps every element when all of them satisfy the predicate. */
  lemma {:induction false} FilterAll<T(!new)>(p: T -> bool, s: seq<T>)
    requires forall x :: x in s ==> p(x)
    ensures Filter(p, s) == s
  {
    if |s| > 0 {
      FilterAll(p, s[1..]);
    }
  }

  /** A filter shrinks `s` strictly when some element fails the predicate. */
  lemma {:induction false} FilterDrops<T(!new)>(p: T -> bool, s: seq<T>, i: nat)
    requires i < |s| && !p(s[i])
    ensures |Filter(p, s)| < |s|
  {
    var head := if p(s[0]) then [s[0]] else [];
    assert Filter(p, s) == head + Filter(p, s[1..]);
    if i > 0 {
      assert s[1..][i - 1] == s[i];
      FilterDrops(p, s[1..], i - 1);
    }
  }

  /** A filtered sequence has no duplicates when the original has none. */
  lemma {:induction false} FilterNoDups<T(!new)>(p: T -> bool, s: seq<T>)
    requires NoDups(s)
    ensures NoDups(Filter(p, s))
  {
    if |s| > 0 {
      assert NoDups(s[1..]) by {
        forall i, j | 0 <= i < j < |s[1..]| ensures s[1..][i] != s[1..][j] {
          assert s[1..][i] == s[i + 1] && s[1..][j] == s[j + 1];
        }
      }
      FilterNoDups(p, s[1..]);
      assert s[0] !in s[1..] by {
        forall k | 0 <= k < |s[1..]| ensures s[1..][k] != s[0] {
          assert s[1..][k] == s[k + 1];
        }
      }
    }
  }

  /** No element occurs twice. */
  predicate NoDups<T(==)>(s: seq<T>) {
    forall i, j :: 0 <= i < j < |s| ==> s[i] != s[j]
  }

  /** `[...new Set(s)]`: each element once, in order of first occurrence. */
  function Dedup<T(==,!new)>(s: seq<T>): (r: seq<T>)
    ensures NoDups(r)
    ensures forall x :: x in r <==> x in s
    decreases |s|
  {
    if |s| == 0 then []
    else
      var init := s[..|s| - 1];
      var d := Dedup(init);
      assert forall x :: x in s <==> x in init || x == s[|s| - 1] by {
        assert s == init + [s[|s| - 1]];
      }
      if s[|s| - 1] in d then d else d + [s[|s| - 1]]
  }

  /** Appending one element to the input of `Dedup` appends it to the output unless already present. */
  lemma DedupSnoc<T(!new)>(s: seq<T>, x: T)
    ensures Dedup(s + [x]) == if x in Dedup(s) then Dedup(s) else Dedup(s) + [x]
  {
    assert (s + [x])[..|s|] == s;
  }

  /** Removing a duplicate-free sequence's duplicates changes nothing. */
  lemma {:induction false} DedupOfNoDups<T(!new)>(s: seq<T>)
    requires NoDups(s)
    ensures Dedup(s) == s
    decreases |s|
  {
    if |s| > 0 {
      var init := s[..|s| - 1];
      assert NoDups(init);
      DedupOfNoDups(init);
      assert s[|s| - 1] !in init;
      assert s == init + [s[|s| - 1]];
    }
  }

  /** `s.slice(-limit)`: a negative start counts back from the end, a non-negative one from the front. */
  function SliceFromEnd<T(!new)>(s: seq<T>, limit: int): (r: seq<T>)
    ensures forall x :: x in r ==> x in s
    ensures limit > 0 ==> |r| == Min(limit, |s|) && r == s[|s| - |r|..]
    ensures limit == 0 ==> r == s
    ensures limit < 0 ==> r == s[Min(-limit, |s|)..]
  {
    var start := -limit;
    if start < 0 then s[Max(|s| + start, 0)..]
    else s[Min(start, |s|)..]
  }

  function Min(a: int, b: int): int {
    if a <= b then a else b
  }

  function Max(a: int, b: int): int {
    if a >= b then a else b
  }

  /** `s.splice(i, 1)`: the sequence without its element at index `i`. */
  function RemoveAt<T>(s: seq<T>, i: nat): (r: seq<T>)
    requires i < |s|
    ensures |r| == |s| - 1
    ensures forall k :: 0 <= k < i ==> r[k] == s[k]
    ensures forall k :: i <= k < |r| ==> r[k] == s[k + 1]
    ensures multiset(r) + multiset{s[i]} == multiset(s)
  {
    assert s == s[..i] + [s[i]] + s[i + 1..];
    s[..i] + s[i + 1..]
  }

  /** `s.splice(i, 0, x)`: the sequence with `x` inserted before index `i`. */
  function InsertAt<T>(s: seq<T>, i: nat, x: T): (r: seq<T>)
    requires i <= |s|
    ensures |r| == |s| + 1
    ensures r[i] == x
    ensures forall k :: 0 <= k < i ==> r[k] == s[k]
    ensures forall k :: i < k < |r| ==> r[k] == s[k - 1]
    ensures multiset(r) == multiset(s) + multiset{x}
  {
    assert s == s[..i] + s[i..];
    s[..i] + [x] + s[i..]
  }

  /** `s.indexOf(x)`: the first index holding `x`, or -1. */
  function IndexOf<T(==)>(s: seq<T>, x: T): (r: int)
    ensures -1 <= r < |s|
    ensures r == -1 <==> x !in s
    ensures 0 <= r ==> s[r] == x && x !in s[..r]
  {
    if |s| == 0 then -1
    else if s[0] == x then 0
    else
      var k := IndexOf(s[1..], x);
      if k == -1 then -1
      else
        assert s[..k + 1] == [s[0]] + s[1..][..k];
        k + 1
  }

  /** `Array.prototype.map`. */
  function Map<A, B>(f: A -> B, s: seq<A>): (r: seq<B>)
    ensures |r| == |s|
    ensures forall i :: 0 <= i < |s| ==> r[i] == f(s[i])
  {
    seq(|s|, i requires 0 <= i < |s| => f(s[i]))
  }

  /** `Array.prototype.flatMap`: the concatenation of `f` applied to each element in order. */
  function FlatMap<A, B>(f: A -> seq<B>, s: seq<A>): seq<B> {
    if |s| == 0 then [] else f(s[0]) + FlatMap(f, s[1..])
  }

  /** Flat-mapping distributes over concatenation. */
  lemma {:induction false} FlatMapAppend<A, B>(f: A -> seq<B>, a: seq<A>, b: seq<A>)
    ensures FlatMap(f, a + b) == FlatMap(f, a) + FlatMap(f, b)
  {
    if |a| == 0 {
      assert a + b == b;
    } else {
      assert (a + b)[0] == a[0] && (a + b)[1..] == a[1..] + b;
      FlatMapAppend(f, a[1..], b);
      assert f(a[0]) + (FlatMap(f, a[1..]) + FlatMap(f, b)) == (f(a[0]) + FlatMap(f, a[1..])) + FlatMap(f, b);
    }
  }

  /** The values of a map are exactly the images of the elements. */
  lemma MapMembers<A, B>(f: A -> B, s: seq<A>)
    ensures forall y :: y in Map(f, s) <==> exists x :: x in s && f(x) == y
  {
    var r := Map(f, s);
    forall y | y in r ensures exists x :: x in s && f(x) == y {
      var i :| 0 <= i < |r| && r[i] == y;
      assert s[i] in s;
    }
    forall y | exists x :: x in s && f(x) == y ensures y in r {
      var x :| x in s && f(x) == y;
      var i :| 0 <= i < |s| && s[i] == x;
      assert r[i] == y;
    }
  }

  lemma MapAppend<A, B>(f: A -> B, a: seq<A>, b: seq<A>)
    ensures Map(f, a + b) == Map(f, a) + Map(f, b)
  {
  }

  /** Mapping two orderings of the same multiset gives two orderings of one multiset. */
  lemma {:induction false} MapMultiset<A, B>(f: A -> B, a: seq<A>, b: seq<A>)
    requires multiset(a) == multiset(b)
    ensures multiset(Map(f, a)) == multiset(Map(f, b))
    decreases |a|
  {
    assert |a| == |multiset(a)| == |multiset(b)| == |b|;
    if |a| > 0 {
      assert a[0] in multiset(b);
      var j :| 0 <= j < |b| && b[j] == a[0];
      RemoveMatching(a, b, j);
      MapMultiset(f, a[1..], RemoveAt(b, j));
      MapRemoveAt(f, b, j);
      assert RemoveAt(a, 0) == a[1..];
      MapRemoveAt(f, a, 0);
    }
  }

  /** Taking the first element of `a` out of both sides of a multiset equality. */
  lemma RemoveMatching<T>(a: seq<T>, b: seq<T>, j: nat)
    requires multiset(a) == multiset(b) && |a| > 0 && j < |b| && b[j] == a[0]
    ensures multiset(RemoveAt(b, j)) == multiset(a[1..])
  {
    assert multiset(RemoveAt(b, j)) == multiset(b) - multiset{a[0]};
    assert a == [a[0]] + a[1..];
    assert multiset(a[1..]) == multiset(a) - multiset{a[0]};
  }

  /** Mapping commutes with removing one element, as multisets. */
  lemma MapRemoveAt<A, B>(f: A -> B, s: seq<A>, j: nat)
    requires j < |s|
    ensures multiset(Map(f, s)) == multiset(Map(f, RemoveAt(s, j))) + multiset{f(s[j])}
  {
    var m := Map(f, s);
    var r := Map(f, RemoveAt(s, j));
    assert r == m[..j] + m[j + 1..];
    assert m == m[..j] + [m[j]] + m[j + 1..];
  }

  /** `NoDups` in terms of multiplicities. */
  lemma {:induction false} NoDupsMultiplicity<T>(s: seq<T>)
    ensures NoDups(s) <==> forall x :: multiset(s)[x] <= 1
  {
    if NoDups(s) {
      forall x ensures multiset(s)[x] <= 1 {
        NoDupsCount(s, x);
      }
    } else {
      var i, j :| 0 <= i < j < |s| && s[i] == s[j];
      assert s == s[..j] + [s[j]] + s[j + 1..];
      assert s[i] in multiset(s[..j]);
      assert multiset(s)[s[j]] >= 2;
    }
  }

  lemma {:induction false} NoDupsCount<T>(s: seq<T>, x: T)
    requires NoDups(s)
    ensures multiset(s)[x] <= 1
    decreases |s|
  {
    if |s| > 0 {
      assert NoDups(s[1..]) by {
        forall i, j | 0 <= i < j < |s[1..]| ensures s[1..][i] != s[1..][j] {
          assert s[1..][i] == s[i + 1] && s[1..][j] == s[j + 1];
        }
      }
      NoDupsCount(s[1..], x);
      assert s == [s[0]] + s[1..];
      if s[0] == x {
        assert x !in s[1..] by {
          forall k | 0 <= k < |s[1..]| ensures s[1..][k] != x {
            assert s[1..][k] == s[k + 1];
          }
        }
      }
    }
  }

  /** Reordering keeps a sequence free of duplicates. */
  lemma NoDupsPermutation<T>(a: seq<T>, b: seq<T>)
    requires multiset(a) == multiset(b) && NoDups(a)
    ensures NoDups(b)
  {
    NoDupsMultiplicity(a);
    NoDupsMultiplicity(b);
  }
}

=== FILE: server.dfy ===
/** The frame dispatcher of server.js: the per-connection `message` and `close` handlers as
    one transition each over the server state. Node runs every handler to completion before
    the next one starts, so each frame is one atomic step. */
module Server {
  import opened Wrappers
  import opened Seqs
  import opened Text
  import opened MessageStore
  import opened RoomDirectory
  import opened Fanout
  import Registry

  /** Everything the handlers read and write: the room directory, the message log, the
      connection registry and the set of names that have ever posted. */
  datatype State = State(rooms: Directory, log: Log, reg: Registry.Registry, known: set<string>)

  /** One decoded inbound frame. A string field the frame lacks is the empty string, which
      `String(x || '')` produces for a missing field as well; an optional field that is not a
      string (or not an array) is `None`. */
  datatype Frame =
    | JoinFrame(name: string)
    | HistoryFrame(context: string, room: string, with: string)
    | RoomMsgFrame(room: string, text: string, imgUrl: Option<string>)
    | DmFrame(to: string, text: string, imgUrl: Option<string>)
    | CreateRoomFrame(name: string, members: Option<seq<string>>)
    | DeleteRoomFrame(name: string)
    | ReorderRoomsFrame(rooms: Option<seq<string>>)
    | DeleteMsgFrame(id: string)
    | OtherFrame

  /** One outbound frame. `RoomLists` stands for `broadcastRoomLists`: every recipient gets
      the rooms it may see. */
  datatype Event =
    | UserList(users: set<string>)
    | RoomListOf(rooms: Directory)
    | RoomLists
    | KnownUsersList(users: set<string>)
    | JoinedAs(name: string)
    | JoinError
    | HistoryReply(context: string, room: string, with: string, messages: seq<Message>)
    | Chat(msg: Message)
    | MsgDeleted(id: string)

  datatype Target = ToConn(conn: Registry.ConnId) | ToAudience(audience: Audience)

  datatype Send = Send(to: Target, event: Event)

  /** The values a handler takes from the clock and the random generator. */
  datatype Env = Env(freshId: string, now: int)

  datatype Outcome = Outcome(state: State, sends: seq<Send>)

  /** The longest message text stored. */
  const MAX_TEXT: nat := 2000

  /** The longest id `delete_msg` looks for. */
  const MAX_ID: nat := 64

  const UPLOADS: string := "/uploads/"

  /** A character of the regular-expression class `[\w.-]`. */
  predicate IsFileChar(c: char) {
    ('a' <= c <= 'z') || ('A' <= c <= 'Z') || ('0' <= c <= '9') || c == '_' || c == '.' || c == '-'
  }

  /** `/^\/uploads\/[\w.-]+$/.test(u)`. */
  predicate IsUploadPath(u: string) {
    && |u| > |UPLOADS|
    && StartsWith(u, UPLOADS)
    && forall i :: |UPLOADS| <= i < |u| ==> IsFileChar(u[i])
  }

  /** The image reference a message keeps: the request's, when it names an uploaded file. */
  function ImageOf(imgUrl: Option<string>): (r: Option<string>)
    ensures r.Some? <==> imgUrl.Some? && IsUploadPath(imgUrl.value)
    ensures r.Some? ==> r == imgUrl
  {
    if imgUrl.Some? && IsUploadPath(imgUrl.value) then imgUrl else None
  }

  /** The set of senders at start-up: every non-empty `from` in the log, and the two bots. */
  function InitialKnown(log: Log): (r: set<string>)
    ensures "HomeBot" in r && "Claude" in r
    ensures forall u :: u in r <==> u == "HomeBot" || u == "Claude" || (u != "" && exists m :: m in log && m.from == u)
  {
    (set u | u in Froms(log)) + {"HomeBot", "Claude"}
  }

  /** The server right after start-up, before any connection. */
  function Start(log: Log, rooms: Directory): State {
    State(rooms, log, Registry.Empty(), InitialKnown(log))
  }

  /** The names that receive a `user_list`: the keys of `clients`. */
  function Online(reg: Registry.Registry): set<string> {
    reg.clients.Keys
  }

  /** The known-users announcement that follows a record by a first-time sender. */
  function Announce(known: set<string>, user: string): (r: seq<Send>)
    ensures user in known ==> r == []
    ensures user !in known ==> r == [Send(ToAudience(Everyone), KnownUsersList(known + {user}))]
  {
    if user in known then [] else [Send(ToAudience(Everyone), KnownUsersList(known + {user}))]
  }

  // ---------------------------------------------------------------- handlers

  /** `join`: registry admission, then the user list to everyone and the room list, known
      users and confirmation to the joining connection. */
  function OnJoin(s: State, conn: Registry.ConnId, raw: string): (r: Outcome)
    ensures r.state == s.(reg := Registry.Join(s.reg, conn, raw).reg)
    ensures Registry.Join(s.reg, conn, raw).outcome.Ignored? ==> r.sends == []
    ensures Registry.Join(s.reg, conn, raw).outcome.Rejected? ==> r.sends == [Send(ToConn(conn), JoinError)]
    ensures NoNotice(r.sends)
    ensures Registry.Join(s.reg, conn, raw).outcome.Joined? ==>
      var name := Registry.JoinName(raw);
      r.sends == [ Send(ToAudience(Everyone), UserList(Online(s.reg) + {name})),
                   Send(ToConn(conn), RoomListOf(RoomsForUser(s.rooms, name))),
                   Send(ToConn(conn), KnownUsersList(s.known)),
                   Send(ToConn(conn), JoinedAs(name)) ]
  {
    var j := Registry.Join(s.reg, conn, raw);
    match j.outcome
    case Ignored => Outcome(s, [])
    case Rejected => Outcome(s, [Send(ToConn(conn), JoinError)])
    case Joined(name) =>
      Outcome(s.(reg := j.reg),
              [ Send(ToAudience(Everyone), UserList(Online(j.reg))),
                Send(ToConn(conn), RoomListOf(RoomsForUser(s.rooms, name))),
                Send(ToConn(conn), KnownUsersList(s.known)),
                Send(ToConn(conn), JoinedAs(name)) ])
  }

  /** `history`: a room's last 200 records when the room exists and the user may see it, or
      the user's last 200 direct messages with `with`; the reply goes to this connection only. */
  function OnHistory(s: State, conn: Registry.ConnId, user: string,
                     context: string, room: string, with: string): (r: Outcome)
    ensures r.state == s
    ensures |r.sends| <= 1
    ensures forall x :: x in r.sends ==> x.to == ToConn(conn) && x.event.HistoryReply?
    ensures context == "room" ==> (r.sends != [] <==> Admits(s.rooms, user, room))
    ensures r.sends != [] && context == "room" ==>
      r.sends[0].event.messages == RoomHistory(s.log, room, HISTORY_LIMIT)
    ensures r.sends != [] && context != "room" ==>
      && context == "dm"
      && r.sends[0].event.messages == DMHistory(s.log, user, with, HISTORY_LIMIT)
    ensures context == "dm" ==> r.sends != []
    ensures r.sends != [] ==> r.sends[0].event == HistoryReply(context, room, with, r.sends[0].event.messages)
  {
    if context == "room" then
      AdmitsFound(s.rooms, user, room);
      var found := FindRoom(s.rooms, room);
      if found.None? || !CanSee(user, found.value) then Outcome(s, [])
      else Outcome(s, [Send(ToConn(conn), HistoryReply(context, room, with, RoomHistory(s.log, room, HISTORY_LIMIT)))])
    else if context == "dm" then
      Outcome(s, [Send(ToConn(conn), HistoryReply(context, room, with, DMHistory(s.log, user, with, HISTORY_LIMIT)))])
    else Outcome(s, [])
  }

  /** `room_msg`: stored and fanned out when the room exists and the user may post in it. */
  function OnRoomMsg(s: State, user: string, room: string, text: string, imgUrl: Option<string>,
                     env: Env): (r: Outcome)
    requires env.freshId != ""
    ensures r.state.rooms == s.rooms && r.state.reg == s.reg
    ensures r.state.known == s.known + (if r.state.log == s.log then {} else {user})
    ensures r.state.log == s.log <==> !Admits(s.rooms, user, room)
    ensures r.state.log != s.log ==> |r.state.log| == |s.log| + 1 && |r.sends| >= 1
    ensures r.state.log != s.log ==>
      var m := r.state.log[|s.log|];
      && r.state.log == s.log + [m]
      && m.kind == RoomMsg && m.room == room && m.from == user && m.to == "" && m.id == env.freshId
      && m.text == Take(text, MAX_TEXT) && m.imgUrl == ImageOf(imgUrl) && m.ts == env.now
      && r.sends[0] == Send(ToAudience(RoomAudience(FindRoom(s.rooms, room).value)), Chat(m))
      && r.sends[1..] == (if user in s.known then [] else [Send(ToAudience(Everyone), KnownUsersList(s.known + {user}))])
    ensures r.state.log == s.log ==> r.sends == []
  {
    AdmitsFound(s.rooms, user, room);
    var found := FindRoom(s.rooms, room);
    if found.None? || !CanSee(user, found.value) then Outcome(s, [])
    else
      var msg := Message("", RoomMsg, user, room, "", Take(text, MAX_TEXT), env.now, ImageOf(imgUrl));
      var saved := SaveMessage(s.log, msg, env.freshId);
      assert saved.log[|s.log|] == saved.stored;
      Outcome(s.(log := saved.log, known := s.known + {user}),
              [Send(ToAudience(RoomAudience(found.value)), Chat(saved.stored))] + Announce(s.known, user))
  }

  /** `dm`: stored, then sent to the recipient and echoed to the sender, unless the trimmed
      recipient is empty or the sender. */
  function OnDm(s: State, user: string, rawTo: string, text: string, imgUrl: Option<string>,
                env: Env): (r: Outcome)
    requires env.freshId != ""
    ensures r.state.rooms == s.rooms && r.state.reg == s.reg
    ensures r.state.known == s.known + (if r.state.log == s.log then {} else {user})
    ensures r.state.log == s.log <==> Trim(rawTo) == [] || Trim(rawTo) == user
    ensures r.state.log != s.log ==> |r.state.log| == |s.log| + 1 && |r.sends| >= 1
    ensures r.state.log != s.log ==>
      var m := r.state.log[|s.log|];
      && r.state.log == s.log + [m]
      && m.kind == Dm && m.from == user && m.to == Trim(rawTo) && m.room == "" && m.id == env.freshId
      && m.text == Take(text, MAX_TEXT) && m.imgUrl == ImageOf(imgUrl) && m.ts == env.now
      && r.sends[|r.sends| - 1] == Send(ToAudience(DmAudience(user, Trim(rawTo))), Chat(m))
      && r.sends[..|r.sends| - 1] == (if user in s.known then [] else [Send(ToAudience(Everyone), KnownUsersList(s.known + {user}))])
    ensures r.state.log == s.log ==> r.sends == []
  {
    var to := Trim(rawTo);
    if to == [] || to == user then Outcome(s, [])
    else
      var msg := Message("", Dm, user, "", to, Take(text, MAX_TEXT), env.now, ImageOf(imgUrl));
      var saved := SaveMessage(s.log, msg, env.freshId);
      assert saved.log[|s.log|] == saved.stored;
      Outcome(s.(log := saved.log, known := s.known + {user}),
              Announce(s.known, user) + [Send(ToAudience(DmAudience(user, to)), Chat(saved.stored))])
  }

  /** `create_room`, `delete_room` and `reorder_rooms`: a directory change, announced with a
      fresh room list to everyone, or nothing. */
  function OnRooms(s: State, change: Option<Directory>): (r: Outcome)
    ensures r.state.log == s.log && r.state.reg == s.reg && r.state.known == s.known
    ensures change.None? ==> r == Outcome(s, [])
    ensures change.Some? ==> r.state.rooms == change.value && r.sends == [Send(ToAudience(Everyone), RoomLists)]
  {
    match change
    case None => Outcome(s, [])
    case Some(rooms) => Outcome(s.(rooms := rooms), [Send(ToAudience(Everyone), RoomLists)])
  }

  /** `delete_msg`: the id is cut to 64 characters; an empty id is ignored; `msg_deleted` goes
      to everyone only when the user's record was found and removed. */
  function OnDeleteMsg(s: State, user: string, rawId: string): (r: Outcome)
    ensures r.state.rooms == s.rooms && r.state.reg == s.reg && r.state.known == s.known
    ensures var id := Take(rawId, MAX_ID);
      if id != [] && DeleteMessage(s.log, id, user).ok then
        && r.state.log == DeleteMessage(s.log, id, user).log
        && r.sends == [Send(ToAudience(Everyone), MsgDeleted(id))]
      else
        r == Outcome(s, [])
  {
    var id := Take(rawId, MAX_ID);
    if id == [] then Outcome(s, [])
    else
      var d := DeleteMessage(s.log, id, user);
      if d.ok then Outcome(s.(log := d.log), [Send(ToAudience(Everyone), MsgDeleted(id))])
      else Outcome(s, [])
  }

  /** The handlers that need a joined connection. */
  function Dispatch(s: State, conn: Registry.ConnId, user: string, f: Frame, env: Env): (r: Outcome)
    requires env.freshId != "" && !f.JoinFrame?
    ensures r.state.reg == s.reg
    ensures s.known <= r.state.known
  {
    match f
    case HistoryFrame(context, room, with) => OnHistory(s, conn, user, context, room, with)
    case RoomMsgFrame(room, text, imgUrl) => OnRoomMsg(s, user, room, text, imgUrl, env)
    case DmFrame(to, text, imgUrl) => OnDm(s, user, to, text, imgUrl, env)
    case CreateRoomFrame(name, members) => OnRooms(s, CreateRoom(s.rooms, user, name, members, s.known))
    case DeleteRoomFrame(name) => OnRooms(s, DeleteRoom(s.rooms, user, name))
    case ReorderRoomsFrame(incoming) => OnRooms(s, ReorderRooms(s.rooms, user, incoming))
    case DeleteMsgFrame(id) => OnDeleteMsg(s, user, id)
    case OtherFrame => Outcome(s, [])
  }

  /** The `message` handler: `join` is always handled; every other frame only once the
      connection has joined, under the name it last joined with. */
  function Step(s: State, conn: Registry.ConnId, f: Frame, env: Env): (r: Outcome)
    requires env.freshId != ""
    ensures !f.JoinFrame? && conn !in s.reg.names ==> r == Outcome(s, [])
    ensures !f.JoinFrame? ==> r.state.reg == s.reg
    ensures s.known <= r.state.known
  {
    if f.JoinFrame? then OnJoin(s, conn, f.name)
    else if conn !in s.reg.names then Outcome(s, [])
    else Dispatch(s, conn, s.reg.names[conn], f, env)
  }

  /** The `close` handler: the connection leaves the registry and, if it had joined, everyone
      gets the new user list. */
  function OnClose(s: State, conn: Registry.ConnId): (r: Outcome)
    ensures r.state == s.(reg := Registry.Close(s.reg, conn))
    ensures conn !in s.reg.names ==> r.sends == []
    ensures conn in s.reg.names ==> r.sends == [Send(ToAudience(Everyone), UserList(Online(r.state.reg)))]
    ensures conn in s.reg.names && Registry.ConnsOf(s.reg, s.reg.names[conn]) == {conn} ==>
      Online(r.state.reg) == Online(s.reg) - {s.reg.names[conn]}
  {
    var reg := Registry.Close(s.reg, conn);
    if conn in s.reg.names then Outcome(s.(reg := reg), [Send(ToAudience(Everyone), UserList(Online(reg)))])
    else Outcome(s.(reg := reg), [])
  }

  // ---------------------------------------------------------------- properties

  /** The invariant every step keeps: the registry is valid and room names are distinct. */
  predicate Inv(s: State) {
    Registry.Valid(s.reg) && DistinctNames(s.rooms)
  }

  /** The connections a send is written to, resolved against the registry after the step. */
  function Recipients(reg: Registry.Registry, x: Send): set<Registry.ConnId> {
    match x.to
    case ToConn(c) => {c}
    case ToAudience(a) => Reached(reg, a)
  }

  /** Every step keeps the invariant. */
  lemma StepKeepsInv(s: State, conn: Registry.ConnId, f: Frame, env: Env)
    requires env.freshId != "" && Inv(s)
    ensures Inv(Step(s, conn, f, env).state)
  {
    if f.JoinFrame? {
      Registry.JoinKeepsValid(s.reg, conn, f.name);
    } else if conn in s.reg.names {
      var user := s.reg.names[conn];
      match f
      case CreateRoomFrame(name, members) =>
        if CreateRoom(s.rooms, user, name, members, s.known).Some? {
          CreateKeepsNamesDistinct(s.rooms, user, name, members, s.known);
        }
      case DeleteRoomFrame(name) =>
        if DeleteRoom(s.rooms, user, name).Some? {
          DeleteKeepsNamesDistinct(s.rooms, user, name);
        }
      case ReorderRoomsFrame(incoming) =>
        if ReorderRooms(s.rooms, user, incoming).Some? {
          ReorderKeepsNamesDistinct(s.rooms, user, incoming);
        }
      case _ =>
    }
  }

  /** Closing a connection keeps the invariant. */
  lemma CloseKeepsInv(s: State, conn: Registry.ConnId)
    requires Inv(s)
    ensures Inv(OnClose(s, conn).state)
  {
    Registry.CloseKeepsValid(s.reg, conn);
  }

  /** The start state: the registry is empty and the default room names are distinct. */
  lemma StartInv(log: Log)
    ensures Inv(Start(log, InitialRooms()))
  {
    assert Names(InitialRooms()) == DEFAULT_ROOMS;
  }

  /** What reaches the server from the sockets: a frame from a connection, with the clock and
      fresh id of its step, or a connection closing. */
  datatype SocketEvent = Received(conn: Registry.ConnId, f: Frame, env: Env) | Closed(conn: Registry.ConnId)

  /** Every received frame comes with a non-empty fresh id. */
  predicate FreshIds(evs: seq<SocketEvent>) {
    forall e :: e in evs && e.Received? ==> e.env.freshId != ""
  }

  /** The state after one socket event. */
  function Apply(s: State, e: SocketEvent): State
    requires e.Received? ==> e.env.freshId != ""
  {
    match e
    case Received(conn, f, env) => Step(s, conn, f, env).state
    case Closed(conn) => OnClose(s, conn).state
  }

  /** The state after handling the events in order. */
  function Run(s: State, evs: seq<SocketEvent>): State
    requires FreshIds(evs)
    decreases |evs|
  {
    if |evs| == 0 then s
    else
      assert FreshIds(evs[1..]) by {
        forall x | x in evs[1..] ensures x in evs { }
      }
      Run(Apply(s, evs[0]), evs[1..])
  }

  /** Any run of frames and closes keeps the invariant. */
  lemma {:induction false} RunKeepsInv(s: State, evs: seq<SocketEvent>)
    requires Inv(s) && FreshIds(evs)
    ensures Inv(Run(s, evs))
    decreases |evs|
  {
    if |evs| > 0 {
      match evs[0] {
        case Received(conn, f, env) => StepKeepsInv(s, conn, f, env);
        case Closed(conn) => CloseKeepsInv(s, conn);
      }
      assert FreshIds(evs[1..]) by {
        forall x | x in evs[1..] ensures x in evs { }
      }
      RunKeepsInv(Apply(s, evs[0]), evs[1..]);
    }
  }

  /** In every state the server can reach from start-up, each online name holds exactly one
      connection and room names are distinct. */
  lemma ReachableInv(log: Log, evs: seq<SocketEvent>)
    requires FreshIds(evs)
    ensures Inv(Run(Start(log, InitialRooms()), evs))
    ensures forall n :: n in Run(Start(log, InitialRooms()), evs).reg.clients ==>
      |Run(Start(log, InitialRooms()), evs).reg.clients[n]| == 1
  {
    StartInv(log);
    RunKeepsInv(Start(log, InitialRooms()), evs);
  }

  /** The log changes in one of three ways only: not at all, by one appended record, or by
      one removed record. */
  predicate LogStep(log: Log, log': Log) {
    || log' == log
    || (|log'| == |log| + 1 && log'[..|log|] == log)
    || (exists i :: 0 <= i < |log| && log' == log[..i] + log[i + 1..])
  }

  lemma StepLogStep(s: State, conn: Registry.ConnId, f: Frame, env: Env)
    requires env.freshId != ""
    ensures LogStep(s.log, Step(s, conn, f, env).state.log)
  {
    if !f.JoinFrame? && conn in s.reg.names {
      var user := s.reg.names[conn];
      var log' := Step(s, conn, f, env).state.log;
      match f
      case RoomMsgFrame(room, text, imgUrl) =>
        if log' != s.log {
          AppendKeepsPrefix(s.log, log'[|s.log|]);
        }
      case DmFrame(to, text, imgUrl) =>
        if log' != s.log {
          AppendKeepsPrefix(s.log, log'[|s.log|]);
        }
      case DeleteMsgFrame(rawId) =>
        var id := Take(rawId, MAX_ID);
        if id != [] && DeleteMessage(s.log, id, user).ok {
          var i :| FirstMatch(s.log, id, user, i) && DeleteMessage(s.log, id, user).log == s.log[..i] + s.log[i + 1..];
        }
      case _ =>
    }
  }

  lemma AppendKeepsPrefix(log: Log, m: Message)
    ensures (log + [m])[..|log|] == log
  {
  }

  /** A record the step stores is valid: it is the sender's, its text is at most 2000
      characters, any image names an uploaded file, a room message names a room the sender
      may see, and a direct message names another, non-empty recipient. */
  predicate ValidRecord(rooms: Directory, user: string, m: Message) {
    && m.from == user
    && m.id != ""
    && |m.text| <= MAX_TEXT
    && (m.imgUrl.Some? ==> IsUploadPath(m.imgUrl.value))
    && (m.kind == RoomMsg || m.kind == Dm)
    && (m.kind == RoomMsg ==> Admits(rooms, user, m.room))
    && (m.kind == Dm ==> m.to != "" && m.to != user)
  }

  lemma StepStoresValidRecords(s: State, conn: Registry.ConnId, f: Frame, env: Env)
    requires env.freshId != ""
    requires |Step(s, conn, f, env).state.log| > |s.log|
    ensures conn in s.reg.names
    ensures var log' := Step(s, conn, f, env).state.log;
      |log'| == |s.log| + 1 && ValidRecord(s.rooms, s.reg.names[conn], log'[|s.log|])
  {
    var user := s.reg.names[conn];
    var r := Step(s, conn, f, env);
    match f
    case RoomMsgFrame(room, text, imgUrl) =>
      var m := r.state.log[|s.log|];
      assert m.kind == RoomMsg;
    case DmFrame(to, text, imgUrl) =>
    case DeleteMsgFrame(id) =>
    case _ =>
  }

  /** `msg_deleted` goes out exactly when a delete request removed one of the user's records. */
  lemma DeleteNoticeOnlyOnSuccess(s: State, conn: Registry.ConnId, f: Frame, env: Env)
    requires env.freshId != ""
    ensures var r := Step(s, conn, f, env);
      (exists x :: x in r.sends && x.event.MsgDeleted?) <==>
        && f.DeleteMsgFrame? && conn in s.reg.names
        && Take(f.id, MAX_ID) != []
        && DeleteMessage(s.log, Take(f.id, MAX_ID), s.reg.names[conn]).ok
  {
    var r := Step(s, conn, f, env);
    if f.DeleteMsgFrame? {
      if conn in s.reg.names {
        var id := Take(f.id, MAX_ID);
        if id != [] && DeleteMessage(s.log, id, s.reg.names[conn]).ok {
          assert r.sends[0].event.MsgDeleted?;
        }
      }
    } else {
      OnlyDeleteSendsNotice(s, conn, f, env);
    }
  }

  /** No send of the list is a `msg_deleted` notice. */
  predicate NoNotice(sends: seq<Send>) {
    forall x :: x in sends ==> !x.event.MsgDeleted?
  }

  /** No frame other than `delete_msg` produces `msg_deleted`. */
  lemma OnlyDeleteSendsNotice(s: State, conn: Registry.ConnId, f: Frame, env: Env)
    requires env.freshId != "" && !f.DeleteMsgFrame?
    ensures NoNotice(Step(s, conn, f, env).sends)
  {
    if f.JoinFrame? {
    } else if conn in s.reg.names {
      var user := s.reg.names[conn];
      assert Step(s, conn, f, env) == Dispatch(s, conn, user, f, env);
      match f
      case RoomMsgFrame(room, text, imgUrl) => RoomMsgSendsNoNotice(s, user, room, text, imgUrl, env);
      case DmFrame(to, text, imgUrl) => DmSendsNoNotice(s, user, to, text, imgUrl, env);
      case _ =>
    }
  }

  lemma RoomMsgSendsNoNotice(s: State, user: string, room: string, text: string,
                             imgUrl: Option<string>, env: Env)
    requires env.freshId != ""
    ensures NoNotice(OnRoomMsg(s, user, room, text, imgUrl, env).sends)
  {
    AnnounceIsKnownUsers(s.known, user);
  }

  lemma DmSendsNoNotice(s: State, user: string, to: string, text: string,
                        imgUrl: Option<string>, env: Env)
    requires env.freshId != ""
    ensures NoNotice(OnDm(s, user, to, text, imgUrl, env).sends)
  {
    AnnounceIsKnownUsers(s.known, user);
  }

  /** `Announce` only ever sends the known-user list. */
  lemma AnnounceIsKnownUsers(known: set<string>, user: string)
    ensures forall x :: x in Announce(known, user) ==> x.event.KnownUsersList?
  {
  }

  /** A stored room message reaches exactly the connections of the names that may see its
      room, and nobody else. */
  lemma RoomMsgReachesViewers(s: State, conn: Registry.ConnId, room: string, text: string,
                              imgUrl: Option<string>, env: Env, c: Registry.ConnId)
    requires env.freshId != "" && conn in s.reg.names
    requires var r := Step(s, conn, RoomMsgFrame(room, text, imgUrl), env); r.state.log != s.log
    ensures var r := Step(s, conn, RoomMsgFrame(room, text, imgUrl), env);
      var x := FindRoom(s.rooms, room).value;
      && r.sends[0].event == Chat(r.state.log[|s.log|])
      && (c in Recipients(r.state.reg, r.sends[0]) <==>
            exists n :: CanSee(n, x) && c in Registry.ConnsOf(s.reg, n))
  {
    RoomReachesViewers(s.reg, FindRoom(s.rooms, room).value, c);
  }

  /** A stored direct message reaches exactly the connections of its two parties. */
  lemma DmReachesParties(s: State, user: string, to: string, text: string,
                         imgUrl: Option<string>, env: Env, c: Registry.ConnId)
    requires env.freshId != ""
    requires OnDm(s, user, to, text, imgUrl, env).state.log != s.log
    ensures var r := OnDm(s, user, to, text, imgUrl, env);
      var last := r.sends[|r.sends| - 1];
      && last.event == Chat(r.state.log[|s.log|])
      && (c in Recipients(r.state.reg, last) <==>
            c in Registry.ConnsOf(s.reg, Trim(to)) || c in Registry.ConnsOf(s.reg, user))
  {
    DmReachesBothParties(s.reg, user, Trim(to), c);
  }

  /** A name held by a live connection cannot be taken over: the join is answered with
      `join_error` and nothing changes. */
  lemma LiveNameRejected(s: State, conn: Registry.ConnId, raw: string, env: Env)
    requires env.freshId != ""
    requires Registry.JoinName(raw) != [] && Registry.Taken(s.reg, Registry.JoinName(raw))
    ensures Step(s, conn, JoinFrame(raw), env) == Outcome(s, [Send(ToConn(conn), JoinError)])
  {
  }

  /** The room directory changes only through an accepted room frame, and every such change
      is announced to everyone. */
  lemma RoomsChangeAnnounced(s: State, conn: Registry.ConnId, f: Frame, env: Env)
    requires env.freshId != ""
    requires Step(s, conn, f, env).state.rooms != s.rooms
    ensures f.CreateRoomFrame? || f.DeleteRoomFrame? || f.ReorderRoomsFrame?
    ensures Step(s, conn, f, env).sends == [Send(ToAudience(Everyone), RoomLists)]
  {
  }
}

=== FILE: slug.dfy ===
/** The room-name slugifier of the `create_room` handler: trim, lower-case, white-space runs to
    one hyphen, drop everything outside `[a-z0-9-]`, collapse hyphen runs, strip one hyphen at
    each end, and keep at most 32 characters. */
module Slug {
  import opened Text
  import opened Seqs

  const MAX_ROOM_NAME: nat := 32

  predicate IsSlugChar(c: char) {
    ('a' <= c <= 'z') || ('0' <= c <= '9') || c == '-'
  }

  /** No two hyphens are adjacent. */
  predicate NoDoubleHyphen(s: string) {
    forall i :: 0 <= i < |s| - 1 ==> !(s[i] == '-' && s[i + 1] == '-')
  }

  predicate AllSlugChars(s: string) {
    forall i :: 0 <= i < |s| ==> IsSlugChar(s[i])
  }

  /** A slug body: slug characters only, no hyphen run, no hyphen at either end. */
  predicate IsSlugBody(s: string) {
    && AllSlugChars(s)
    && NoDoubleHyphen(s)
    && (|s| > 0 ==> s[0] != '-' && s[|s| - 1] != '-')
  }

  /** The room-name invariant the directory is meant to keep. */
  predicate IsSlug(s: string) {
    IsSlugBody(s) && |s| <= MAX_ROOM_NAME
  }

  /** `replace(/\s+/g, '-')`; `inRun` says the previous character was white space. */
  function DashWhitespace(s: string, inRun: bool): (r: string)
    ensures forall i :: 0 <= i < |r| ==> !IsWhitespace(r[i])
    ensures forall i :: 0 <= i < |r| ==> r[i] == '-' || r[i] in s
  {
    if |s| == 0 then []
    else if IsWhitespace(s[0]) then
      (if inRun then [] else "-") + DashWhitespace(s[1..], true)
    else [s[0]] + DashWhitespace(s[1..], false)
  }

  /** `replace(/-+/g, '-')`; `inRun` says the previous character was a hyphen. */
  function CollapseHyphens(s: string, inRun: bool): (r: string)
    ensures NoDoubleHyphen(r)
    ensures inRun && |r| > 0 ==> r[0] != '-'
    ensures forall i :: 0 <= i < |r| ==> r[i] in s
  {
    if |s| == 0 then []
    else if s[0] == '-' then
      (if inRun then [] else "-") + CollapseHyphens(s[1..], true)
    else [s[0]] + CollapseHyphens(s[1..], false)
  }

  /** `replace(/^-|-$/g, '')`: one leading and one trailing hyphen removed. */
  function StripEdgeHyphens(s: string): (r: string)
    ensures |r| <= |s|
    ensures exists i :: 0 <= i <= |s| - |r| && r == s[i..][..|r|]
  {
    var t := if |s| > 0 && s[0] == '-' then s[1..] else s;
    var r := if |t| > 0 && t[|t| - 1] == '-' then t[..|t| - 1] else t;
    assert r == s[|s| - |t|..][..|r|];
    r
  }

  lemma {:induction false} DashKeeps(s: string, inRun: bool, c: char)
    requires c in s && !IsWhitespace(c)
    ensures c in DashWhitespace(s, inRun)
    decreases |s|
  {
    if s[0] != c {
      DashKeeps(s[1..], IsWhitespace(s[0]), c);
    }
  }

  lemma {:induction false} CollapseKeeps(s: string, inRun: bool, c: char)
    requires c in s && c != '-'
    ensures c in CollapseHyphens(s, inRun)
    decreases |s|
  {
    if s[0] != c {
      CollapseKeeps(s[1..], s[0] == '-', c);
    }
  }

  lemma StripKeeps(s: string, c: char)
    requires c in s && c != '-'
    ensures c in StripEdgeHyphens(s)
  {
    var k :| 0 <= k < |s| && s[k] == c;
    var t := if |s| > 0 && s[0] == '-' then s[1..] else s;
    var j := if |s| > 0 && s[0] == '-' then k - 1 else k;
    assert t[j] == c;
    var r := StripEdgeHyphens(s);
    assert r == (if |t| > 0 && t[|t| - 1] == '-' then t[..|t| - 1] else t);
    assert r[j] == c;
  }

  /** The whole slugifier. */
  function Slugify(raw: string): (r: string)
    ensures AllSlugChars(r)
    ensures NoDoubleHyphen(r)
    ensures |r| <= MAX_ROOM_NAME
    ensures |r| > 0 ==> r[0] != '-'
    ensures |r| > 0 && r[|r| - 1] == '-' ==> |r| == MAX_ROOM_NAME
  {
    var a := DashWhitespace(Lower(Trim(raw)), false);
    var b := Filter(IsSlugChar, a);
    var c := CollapseHyphens(b, false);
    var d := StripEdgeHyphens(c);
    SlugPipelineFacts(b, c, d);
    Take(d, MAX_ROOM_NAME)
  }

  lemma SlugPipelineFacts(b: string, c: string, d: string)
    requires forall x :: x in b ==> IsSlugChar(x)
    requires c == CollapseHyphens(b, false)
    requires d == StripEdgeHyphens(c)
    ensures IsSlugBody(d)
  {
    var t := if |c| > 0 && c[0] == '-' then c[1..] else c;
    assert d == (if |t| > 0 && t[|t| - 1] == '-' then t[..|t| - 1] else t);
    assert AllSlugChars(c) by {
      forall i | 0 <= i < |c| ensures IsSlugChar(c[i]) {
        assert c[i] in b;
      }
    }
    if |t| > 1 && c[0] == '-' {
      assert t[0] == c[1];
    }
    if |d| > 1 && |t| > 0 && t[|t| - 1] == '-' {
      assert d[|d| - 1] == t[|t| - 2];
    }
  }

  predicate IsAsciiAlnum(c: char) {
    ('a' <= c <= 'z') || ('A' <= c <= 'Z') || ('0' <= c <= '9')
  }

  /** The slug is empty exactly when the raw name holds no ASCII letter or digit, which is
      when `create_room` ignores the request for want of a name. */
  lemma SlugEmptyIffNoAlnum(raw: string)
    ensures Slugify(raw) == [] <==> forall i :: 0 <= i < |raw| ==> !IsAsciiAlnum(raw[i])
  {
    if i :| 0 <= i < |raw| && IsAsciiAlnum(raw[i]) {
      SlugKeepsAlnum(raw, i);
    } else {
      SlugOfNoAlnum(raw);
    }
  }

  lemma SlugKeepsAlnum(raw: string, i: nat)
    requires i < |raw| && IsAsciiAlnum(raw[i])
    ensures Slugify(raw) != []
  {
    var y := LowerChar(raw[i]);
    assert IsSlugChar(y) && y != '-' && !IsWhitespace(y);
    LowerKeeps(raw, i);
    SlugKeepsLower(Lower(Trim(raw)), y);
  }

  /** A character that is not white space survives trimming and lower-casing, lower-cased. */
  lemma LowerKeeps(raw: string, i: nat)
    requires i < |raw| && !IsWhitespace(raw[i])
    ensures LowerChar(raw[i]) in Lower(Trim(raw))
  {
    TrimKeeps(raw, i);
    var tr := Trim(raw);
    var k :| 0 <= k < |tr| && tr[k] == raw[i];
    assert Lower(tr)[k] == LowerChar(raw[i]);
  }

  lemma SlugKeepsLower(lo: string, y: char)
    requires y in lo && IsSlugChar(y) && y != '-' && !IsWhitespace(y)
    ensures StripEdgeHyphens(CollapseHyphens(Filter(IsSlugChar, DashWhitespace(lo, false)), false)) != []
  {
    var a := DashWhitespace(lo, false);
    DashKeeps(lo, false, y);
    var b := Filter(IsSlugChar, a);
    assert y in b;
    CollapseKeeps(b, false, y);
    StripKeeps(CollapseHyphens(b, false), y);
  }

  lemma SlugOfNoAlnum(raw: string)
    requires forall i :: 0 <= i < |raw| ==> !IsAsciiAlnum(raw[i])
    ensures Slugify(raw) == []
  {
    var tr := Trim(raw);
    var lo := Lower(tr);
    var a := DashWhitespace(lo, false);
    var b := Filter(IsSlugChar, a);
    TrimChars(raw);
    assert forall x :: x in lo ==> !IsAsciiAlnum(x) by {
      forall x | x in lo ensures !IsAsciiAlnum(x) {
        var k :| 0 <= k < |lo| && lo[k] == x;
        assert tr[k] in tr;
      }
    }
    assert forall x :: x in b ==> x == '-' by {
      forall x | x in b ensures x == '-' {
        var k :| 0 <= k < |a| && a[k] == x;
      }
    }
    HyphensCollapseToOne(b);
  }

  lemma HyphensCollapseToOne(b: string)
    requires forall x :: x in b ==> x == '-'
    ensures StripEdgeHyphens(CollapseHyphens(b, false)) == []
  {
    var c := CollapseHyphens(b, false);
    if |c| == 1 {
      assert c[0] in b;
    }
  }

  /** On a string already made of slug characters without hyphen runs, the slugifier only
      strips the edge hyphens and truncates. */
  lemma SlugifyOnSlugChars(s: string)
    requires AllSlugChars(s) && NoDoubleHyphen(s)
    ensures Slugify(s) == Take(StripEdgeHyphens(s), MAX_ROOM_NAME)
  {
    NoWhitespaceInSlugChars(s);
    TrimIdentity(s);
    LowerIdentity(s);
    DashWhitespaceIdentity(s, false);
    FilterAll(IsSlugChar, s);
    CollapseIdentity(s, false);
  }

  lemma NoWhitespaceInSlugChars(s: string)
    requires AllSlugChars(s)
    ensures forall i :: 0 <= i < |s| ==> !IsWhitespace(s[i])
  {
    forall i | 0 <= i < |s| ensures !IsWhitespace(s[i]) {
      assert IsSlugChar(s[i]);
    }
  }

  lemma LowerIdentity(s: string)
    requires AllSlugChars(s)
    ensures Lower(s) == s
  {
    forall i | 0 <= i < |s| ensures Lower(s)[i] == s[i] {
      assert IsSlugChar(s[i]);
    }
  }

  lemma {:induction false} DashWhitespaceIdentity(s: string, inRun: bool)
    requires forall i :: 0 <= i < |s| ==> !IsWhitespace(s[i])
    ensures DashWhitespace(s, inRun) == s
    decreases |s|
  {
    if |s| > 0 {
      DashWhitespaceIdentity(s[1..], false);
      assert s == [s[0]] + s[1..];
    }
  }

  lemma {:induction false} CollapseIdentity(s: string, inRun: bool)
    requires NoDoubleHyphen(s)
    requires inRun && |s| > 0 ==> s[0] != '-'
    ensures CollapseHyphens(s, inRun) == s
    decreases |s|
  {
    if |s| > 0 {
      assert NoDoubleHyphen(s[1..]) by {
        forall i | 0 <= i < |s[1..]| - 1 ensures !(s[1..][i] == '-' && s[1..][i + 1] == '-') {
          assert s[1..][i] == s[i + 1] && s[1..][i + 1] == s[i + 2];
        }
      }
      CollapseIdentity(s[1..], s[0] == '-');
      assert s == [s[0]] + s[1..];
    }
  }

  /** A well-formed room name is its own slug. */
  lemma SlugifyFixpoint(s: string)
    requires IsSlug(s)
    ensures Slugify(s) == s
  {
    SlugifyOnSlugChars(s);
  }

  /** 31 letters, a hyphen and a letter: truncation to 32 characters leaves a trailing hyphen,
      and slugifying that result again removes it, so the slugifier is not idempotent. */
  lemma TrailingHyphenSurvives()
    ensures var raw := seq(31, _ => 'a') + "-b";
      var r := Slugify(raw);
      |r| == 32 && r[31] == '-' && Slugify(r) == r[..31]
  {
    var raw := seq(31, _ => 'a') + "-b";
    assert |raw| == 33 && raw[0] == 'a' && raw[31] == '-' && raw[32] == 'b';
    assert AllSlugChars(raw) && NoDoubleHyphen(raw) by {
      forall i | 0 <= i < 31 ensures raw[i] == 'a' { }
    }
    SlugifyOnSlugChars(raw);
    StripPlain(raw);
    var r := raw[..32];
    assert Slugify(raw) == r;
    PrefixSlugChars(raw, 32);
    SlugifyOnSlugChars(r);
    StripTrailing(r);
  }

  /** A prefix of a string of slug characters without hyphen runs is one too. */
  lemma PrefixSlugChars(s: string, n: nat)
    requires AllSlugChars(s) && NoDoubleHyphen(s) && n <= |s|
    ensures AllSlugChars(s[..n]) && NoDoubleHyphen(s[..n])
  {
    assert forall i :: 0 <= i < n ==> s[..n][i] == s[i];
  }

  /** Without hyphens at the ends, stripping changes nothing. */
  lemma StripPlain(s: string)
    requires |s| > 0 && s[0] != '-' && s[|s| - 1] != '-'
    ensures StripEdgeHyphens(s) == s
  {
  }

  /** With a trailing hyphen only, stripping removes the last character. */
  lemma StripTrailing(s: string)
    requires |s| > 1 && s[0] != '-' && s[|s| - 1] == '-'
    ensures StripEdgeHyphens(s) == s[..|s| - 1]
  {
  }
}

=== FILE: sorting.dfy ===
/** The default `Array.prototype.sort` on strings, as used by the `reorder_rooms` check:
    an insertion sort under lexicographic order on characters. */
module Sorting {

  /** Lexicographic "less than or equal" on strings. */
  predicate Le(a: string, b: string)
    decreases |a|
  {
    |a| == 0 || (|b| > 0 && (a[0] < b[0] || (a[0] == b[0] && Le(a[1..], b[1..]))))
  }

  lemma {:induction false} LeTotal(a: string, b: string)
    ensures Le(a, b) || Le(b, a)
    decreases |a|
  {
    if |a| > 0 && |b| > 0 && a[0] == b[0] {
      LeTotal(a[1..], b[1..]);
    }
  }

  lemma {:induction false} LeReflexive(a: string)
    ensures Le(a, a)
    decreases |a|
  {
    if |a| > 0 {
      LeReflexive(a[1..]);
    }
  }

  lemma {:induction false} LeAntisymmetric(a: string, b: string)
    requires Le(a, b) && Le(b, a)
    ensures a == b
    decreases |a|
  {
    if |a| > 0 {
      LeAntisymmetric(a[1..], b[1..]);
      assert a == [a[0]] + a[1..] && b == [b[0]] + b[1..];
    }
  }

  lemma {:induction false} LeTransitive(a: string, b: string, c: string)
    requires Le(a, b) && Le(b, c)
    ensures Le(a, c)
    decreases |a|
  {
    if |a| > 0 && a[0] == b[0] && b[0] == c[0] {
      LeTransitive(a[1..], b[1..], c[1..]);
    }
  }

  predicate Sorted(s: seq<string>) {
    forall i, j :: 0 <= i < j < |s| ==> Le(s[i], s[j])
  }

  /** Inserts `x` before the first element it does not exceed. */
  function Insert(x: string, s: seq<string>): (r: seq<string>)
    requires Sorted(s)
    ensures Sorted(r)
    ensures multiset(r) == multiset(s) + multiset{x}
  {
    if |s| == 0 then [x]
    else if Le(x, s[0]) then
      LowerBoundAll(x, s);
      ConsSorted(x, s);
      [x] + s
    else
      var t := Insert(x, s[1..]);
      LeTotal(x, s[0]);
      HeadBound(s, x, t);
      ConsSorted(s[0], t);
      assert s == [s[0]] + s[1..];
      [s[0]] + t
  }

  /** Prepending a lower bound keeps a sequence sorted. */
  lemma ConsSorted(x: string, s: seq<string>)
    requires Sorted(s) && forall k :: 0 <= k < |s| ==> Le(x, s[k])
    ensures Sorted([x] + s)
  {
    forall i, j | 0 <= i < j < |s| + 1 ensures Le(([x] + s)[i], ([x] + s)[j]) {
      assert ([x] + s)[j] == s[j - 1];
    }
  }

  /** A lower bound of the least element bounds them all. */
  lemma LowerBoundAll(x: string, s: seq<string>)
    requires Sorted(s) && |s| > 0 && Le(x, s[0])
    ensures forall k :: 0 <= k < |s| ==> Le(x, s[k])
  {
    forall k | 0 < k < |s| ensures Le(x, s[k]) {
      LeTransitive(x, s[0], s[k]);
    }
  }

  /** The least element of `s` bounds `s[1..]` with `x` added when it bounds `x`. */
  lemma HeadBound(s: seq<string>, x: string, t: seq<string>)
    requires Sorted(s) && |s| > 0 && Le(s[0], x)
    requires multiset(t) == multiset(s[1..]) + multiset{x}
    ensures forall k :: 0 <= k < |t| ==> Le(s[0], t[k])
  {
    forall k | 0 <= k < |t| ensures Le(s[0], t[k]) {
      var y := t[k];
      assert y in multiset(t);
      if y != x {
        assert y in multiset(s[1..]);
        var i :| 0 <= i < |s[1..]| && s[1..][i] == y;
        assert s[i + 1] == y;
      }
    }
  }

  /** Insertion sort. */
  function Sort(s: seq<string>): (r: seq<string>)
    ensures Sorted(r)
    ensures multiset(r) == multiset(s)
  {
    if |s| == 0 then []
    else
      assert s == [s[0]] + s[1..];
      Insert(s[0], Sort(s[1..]))
  }

  /** Two sorted sequences holding the same multiset are equal. */
  lemma {:induction false} SortedUnique(a: seq<string>, b: seq<string>)
    requires Sorted(a) && Sorted(b)
    requires multiset(a) == multiset(b)
    ensures a == b
    decreases |a|
  {
    assert |b| == |multiset(b)| == |multiset(a)| == |a|;
    if |a| > 0 {
      HeadsEqual(a, b);
      TailsSameMultiset(a, b);
      SortedTail(a);
      SortedTail(b);
      SortedUnique(a[1..], b[1..]);
      assert a == [a[0]] + a[1..] && b == [b[0]] + b[1..];
    }
  }

  /** The least elements of two sorted sequences with one multiset coincide. */
  lemma HeadsEqual(a: seq<string>, b: seq<string>)
    requires Sorted(a) && Sorted(b) && |a| > 0 && |b| > 0
    requires multiset(a) == multiset(b)
    ensures a[0] == b[0]
  {
    assert a[0] in multiset(b);
    var j :| 0 <= j < |b| && b[j] == a[0];
    assert Le(b[0], a[0]) by {
      if j > 0 { assert Le(b[0], b[j]); } else { LeReflexive(a[0]); }
    }
    assert b[0] in multiset(a);
    var i :| 0 <= i < |a| && a[i] == b[0];
    assert Le(a[0], b[0]) by {
      if i > 0 { assert Le(a[0], a[i]); } else { LeReflexive(a[0]); }
    }
    LeAntisymmetric(a[0], b[0]);
  }

  lemma TailsSameMultiset(a: seq<string>, b: seq<string>)
    requires |a| > 0 && |b| > 0 && a[0] == b[0]
    requires multiset(a) == multiset(b)
    ensures multiset(a[1..]) == multiset(b[1..])
  {
    assert a == [a[0]] + a[1..] && b == [b[0]] + b[1..];
    assert multiset(a[1..]) == multiset(a) - multiset{a[0]};
    assert multiset(b[1..]) == multiset(b) - multiset{b[0]};
  }

  lemma SortedTail(a: seq<string>)
    requires Sorted(a) && |a| > 0
    ensures Sorted(a[1..])
  {
    forall i, j | 0 <= i < j < |a[1..]| ensures Le(a[1..][i], a[1..][j]) {
      assert a[1..][i] == a[i + 1] && a[1..][j] == a[j + 1];
    }
  }

  /** Comparing sorted copies decides whether two name lists are the same multiset. */
  lemma SortEqIffSameMultiset(a: seq<string>, b: seq<string>)
    ensures Sort(a) == Sort(b) <==> multiset(a) == multiset(b)
  {
    if multiset(a) == multiset(b) {
      SortedUnique(Sort(a), Sort(b));
    }
  }
}

=== FILE: text.dfy ===
/** String helpers with JavaScript semantics: `trim`, `slice(0, n)`, `startsWith`, ASCII `toLowerCase`. */
module Text {

  /** The characters JavaScript's `trim` and the regex class `\s` treat as white space
      (WhiteSpace and LineTerminator of ECMA-262). */
  predicate IsWhitespace(c: char) {
    || c == ' ' || c == '\t' || c == '\n' || c == '\r'
    || c == '\U{000B}' || c == '\U{000C}' || c == '\U{00A0}' || c == '\U{1680}'
    || ('\U{2000}' <= c <= '\U{200A}')
    || c == '\U{2028}' || c == '\U{2029}' || c == '\U{202F}' || c == '\U{205F}'
    || c == '\U{3000}' || c == '\U{FEFF}'
  }

  /** Strips leading white space. */
  function TrimStart(s: string): (r: string)
    ensures |r| <= |s| && r == s[|s| - |r|..]
    ensures forall i :: 0 <= i < |s| - |r| ==> IsWhitespace(s[i])
    ensures |r| > 0 ==> !IsWhitespace(r[0])
  {
    if |s| > 0 && IsWhitespace(s[0]) then TrimStart(s[1..]) else s
  }

  /** Strips trailing white space. */
  function TrimEnd(s: string): (r: string)
    ensures |r| <= |s| && r == s[..|r|]
    ensures forall i :: |r| <= i < |s| ==> IsWhitespace(s[i])
    ensures |r| > 0 ==> !IsWhitespace(r[|r| - 1])
  {
    if |s| > 0 && IsWhitespace(s[|s| - 1]) then TrimEnd(s[..|s| - 1]) else s
  }

  /** `String.prototype.trim`. */
  function Trim(s: string): (r: string)
    ensures |r| <= |s|
    ensures |r| > 0 ==> !IsWhitespace(r[0]) && !IsWhitespace(r[|r| - 1])
    ensures (forall i :: 0 <= i < |s| ==> IsWhitespace(s[i])) <==> r == []
  {
    var t := TrimStart(s);
    var r := TrimEnd(t);
    r
  }

  /** Trimming only removes characters. */
  lemma TrimChars(s: string)
    ensures forall c :: c in Trim(s) ==> c in s
  {
    var t := TrimStart(s);
    var r := TrimEnd(t);
    forall c | c in r ensures c in s {
      var k :| 0 <= k < |r| && r[k] == c;
      assert t[k] == c;
      assert s[|s| - |t| + k] == c;
    }
  }

  /** Trimming keeps every character that is not white space. */
  lemma TrimKeeps(s: string, i: nat)
    requires i < |s| && !IsWhitespace(s[i])
    ensures s[i] in Trim(s)
  {
    var t := TrimStart(s);
    var a := |s| - |t|;
    assert i >= a;
    assert t[i - a] == s[i];
    var r := TrimEnd(t);
    assert i - a < |r|;
    assert r[i - a] == s[i];
  }

  /** A string without white space at either end is its own trim. */
  lemma TrimIdentity(s: string)
    requires forall i :: 0 <= i < |s| ==> !IsWhitespace(s[i])
    ensures Trim(s) == s
  {
  }

  /** `s.slice(0, n)` for a non-negative `n`: at most the first `n` characters. */
  function Take(s: string, n: nat): (r: string)
    ensures |r| == if |s| <= n then |s| else n
    ensures r == s[..|r|]
  {
    if |s| <= n then s else s[..n]
  }

  /** `s.startsWith(p)`. */
  predicate StartsWith(s: string, p: string) {
    |p| <= |s| && s[..|p|] == p
  }

  /** `s.endsWith(p)`. */
  predicate EndsWith(s: string, p: string) {
    |p| <= |s| && s[|s| - |p|..] == p
  }

  /** `toLowerCase` on one character, for the ASCII letters. */
  function LowerChar(c: char): (r: char)
    ensures 'A' <= c <= 'Z' ==> 'a' <= r <= 'z'
    ensures !('A' <= c <= 'Z') ==> r == c
  {
    if 'A' <= c <= 'Z' then (c as int - 'A' as int + 'a' as int) as char else c
  }

  /** `toLowerCase`, restricted to the ASCII letters. */
  function Lower(s: string): (r: string)
    ensures |r| == |s|
    ensures forall i :: 0 <= i < |s| ==> r[i] == LowerChar(s[i])
  {
    seq(|s|, i requires 0 <= i < |s| => LowerChar(s[i]))
  }

  /** `xs.join('\n')`. */
  function JoinLines(xs: seq<string>): string {
    if |xs| == 0 then ""
    else if |xs| == 1 then xs[0]
    else xs[0] + "\n" + JoinLines(xs[1..])
  }

  /** Joining one more string at the end. */
  lemma {:induction false} JoinLinesSnoc(xs: seq<string>, x: string)
    ensures JoinLines(xs + [x]) == if |xs| == 0 then x else JoinLines(xs) + "\n" + x
  {
    if |xs| > 1 {
      assert (xs + [x])[1..] == xs[1..] + [x];
      JoinLinesSnoc(xs[1..], x);
    } else if |xs| == 1 {
      assert (xs + [x])[1..] == [x];
    }
  }
}

=== FILE: uptime.dfy ===
/** The `!uptime` reply of server.js: whole seconds split into days, hours, minutes and
    seconds. */
module Uptime {

  const SECONDS_PER_DAY: nat := 86400
  const SECONDS_PER_HOUR: nat := 3600
  const SECONDS_PER_MINUTE: nat := 60

  datatype Span = Span(days: nat, hours: nat, minutes: nat, seconds: nat)

  /** The span's fields are in range: under 24 hours, 60 minutes and 60 seconds. */
  predicate Normal(t: Span) {
    t.hours < 24 && t.minutes < 60 && t.seconds < 60
  }

  /** The number of seconds a span stands for. */
  function Total(t: Span): nat {
    t.days * SECONDS_PER_DAY + t.hours * SECONDS_PER_HOUR + t.minutes * SECONDS_PER_MINUTE + t.seconds
  }

  /** `d = floor(s / 86400)`, `h = floor((s % 86400) / 3600)`, `m = floor((s % 3600) / 60)`,
      `sec = s % 60`. The operands are never negative, so the floor division and the
      remainder of JavaScript agree with Dafny's. */
  function Split(s: nat): (r: Span)
    ensures Normal(r)
    ensures Total(r) == s
  {
    var t := Span(s / SECONDS_PER_DAY, (s % SECONDS_PER_DAY) / SECONDS_PER_HOUR,
                  (s % SECONDS_PER_HOUR) / SECONDS_PER_MINUTE, s % SECONDS_PER_MINUTE);
    SplitAdds(s);
    t
  }

  /** The four parts add back up to `s`. */
  lemma SplitAdds(s: nat)
    ensures (s / 86400) * 86400 + ((s % 86400) / 3600) * 3600 + ((s % 3600) / 60) * 60 + s % 60 == s
  {
    var d := s / 86400;
    var a := s % 86400;
    assert s == d * 86400 + a;
    var h := a / 3600;
    var b := a % 3600;
    assert a == h * 3600 + b;
    assert s % 3600 == b by {
      assert s == (d * 24 + h) * 3600 + b;
      ModOfMultiple(s, d * 24 + h, 3600, b);
    }
    var m := b / 60;
    var c := b % 60;
    assert b == m * 60 + c;
    assert s % 60 == c by {
      assert s == ((d * 24 + h) * 60 + m) * 60 + c;
      ModOfMultiple(s, (d * 24 + h) * 60 + m, 60, c);
    }
  }

  /** `s == q * n + r` with `0 <= r < n` fixes the quotient and the remainder. */
  lemma ModOfMultiple(s: nat, q: nat, n: nat, r: nat)
    requires n > 0 && r < n && s == q * n + r
    ensures s % n == r && s / n == q
  {
    var q' := s / n;
    var r' := s % n;
    assert s == q' * n + r';
    if q' > q {
      MulLe(q + 1, q', n);
      assert false;
    } else if q' < q {
      MulLe(q' + 1, q, n);
      assert false;
    }
  }

  lemma MulLe(a: nat, b: nat, n: nat)
    requires a <= b
    ensures a * n <= b * n
  {
  }

  /** A normal span is the split of its total: the decomposition is unique. */
  lemma SplitOfTotal(t: Span)
    requires Normal(t)
    ensures Split(Total(t)) == t
  {
    var s := Total(t);
    var rest := t.hours * 3600 + t.minutes * 60 + t.seconds;
    assert rest < 86400;
    ModOfMultiple(s, t.days, 86400, rest);
    var inHour := t.minutes * 60 + t.seconds;
    ModOfMultiple(rest, t.hours, 3600, inHour);
    assert s == (t.days * 24 + t.hours) * 3600 + inHour;
    ModOfMultiple(s, t.days * 24 + t.hours, 3600, inHour);
    ModOfMultiple(inHour, t.minutes, 60, t.seconds);
    assert s == ((t.days * 24 + t.hours) * 60 + t.minutes) * 60 + t.seconds;
    ModOfMultiple(s, (t.days * 24 + t.hours) * 60 + t.minutes, 60, t.seconds);
  }
}

=== FILE: wrappers.dfy ===
/** Optional values: `None` stands for JavaScript's `null`/`undefined`. */
module Wrappers {

  datatype Option<+T> = None | Some(value: T) {

    /** Returns the value held in Some, or `default` when None. */
    function GetOr(default: T): T {
      match this
      case Some(v) => v
      case None => default
    }
  }
}
